=== FILE: README.md ===
# Skill extraction and matching engine, modelled in Dafny

This project models the skill engine of a resume-screening tool
(`analysis_engine.py`). The engine reads a job description and a resume as
plain text and works in three steps:

1. **Extraction** (`extract_candidate_skills_from_jd`). The required skills come from two sources:
   - the terms of a fixed vocabulary that occur whole-word, ignoring case;
   - the tokens a capitalization regular expression finds, filtered by length and a stop list.

   The union is reduced to one entry per case-insensitive class and sorted.
2. **Matching** (`extract_and_match_skills`). Each requirement is looked for in the resume: the skill itself, or its expansion, or its abbreviation, through the five-entry table `SKILL_NORMALIZATION_MAP`. Requirements are then grouped by a normalization key and split into `Keywords Matched` and `Missing Skills`, and a coverage ratio is computed.
3. **Combination** (`compare_match_data`). The engine wraps the skill report together with a placeholder experience score of 1.0 and a fixed note.

Modules, one per file:

| file | module | content |
|---|---|---|
| `options.dfy` | `Options` | `Option` |
| `ascii.dfy` | `Ascii` | character classes, `lower()`/`upper()` |
| `word_search.dfy` | `WordSearch` | `re.search(r'\b' + re.escape(term) + r'\b', text, re.IGNORECASE)` |
| `string_order.dfy` | `StringOrder` | Python's string order, `sorted(list(set(...)))` |
| `normalization.dfy` | `Normalization` | the abbreviation table, its two lookups, the normalization key |
| `heuristic.dfy` | `Heuristic` | the capitalization pattern as a scanner, `re.findall` |
| `extraction.dfy` | `Extraction` | `extract_candidate_skills_from_jd` |
| `matching.dfy` | `Matching` | `get_found_skills`, the key dictionary, the split, the coverage |
| `analysis.dfy` | `Analysis` | the full pipeline and `compare_match_data` |
| `scenarios.dfy` | `Scenarios`, `MatchingScenarios` | concrete inputs |

Modelling choices:
- **Characters are ASCII.** Only `A`-`Z`/`a`-`z` change case, and `\w` is `[A-Za-z0-9_]`. A position outside the text counts as a non-word character, as `\b` treats it.
- **Set iteration order is a parameter.** Python leaves the order in which the candidate set is walked at line 51 to hashing. The model takes that order as a parameter `iteration`, any sequence whose elements are exactly the candidate set. So the representative kept for a case class is "the first of its class in some order of the set", and every property holds for every such order.
- **`\bC\+\+\b` keeps its quirk.** The vocabulary term `C++` ends in a non-word character, so the trailing `\b` is met only when a word character follows. `C++` followed by a space or the end of the text is not found. The model reproduces this.
- **Coverage is an exact real.** It is `matched / total`, or `0.0` when there are no requirements.

The key results:
- **`Normalization.KeyIffEquivalent`.** Two skills share a normalization key exactly when they are equal ignoring case, or when both spell the same table entry (its abbreviation or its expansion).
- **`Matching.FoundDependsOnlyOnKey`.** Whether a requirement is found depends only on its key.
- **`Matching.MatchCounts`.** In general, `len(matched) + len(missing)` equals the number of requirements exactly when no two requirements share a key.
- **`Analysis.ExtractedKeysDistinct`.** Requirements produced by extraction never share a key. So in the real pipeline every extracted requirement lands in exactly one of the two lists (`Analysis.ExtractAndMatchPartition`), and the counts add up (`Analysis.ExtractAndMatchCounts`).

   The reason: an expansion contains a space, and heuristic tokens never do. So only the vocabulary terms `Machine Learning` and `Deep Learning` can spell an expansion. Their abbreviations `ML` and `DL` have two letters, and every requirement has at least three.

For the job description "Requires Python, AWS, and ML experience." the code produces `["AWS", "Python"]`: `ML` is not a vocabulary term, and as a heuristic token it fails the `len(keyword) > 2` filter. The model follows the code (`Extraction.ExtractCandidateSkills` ensures every requirement has at least three characters).

## Model

| member | source | states |
|---|---|---|
| Ascii.CaseAgreement | analysis_engine.py:52-54 | comparing upper-cased forms and comparing lower-cased forms are the same test, so the dedup by `lower()` and the key lookups by `upper()` agree on what counts as "the same ignoring case" |
| WordSearch.SearchFrom | analysis_engine.py:39 | the scan from position i succeeds iff at some position j >= i the term occurs ignoring case with a word boundary before and after it |
| WordSearch.Search | analysis_engine.py:39 | `re.search(r'\b' + re.escape(term) + r'\b', text, re.IGNORECASE)` succeeds iff the term occurs whole-word, ignoring case, somewhere in the text |
| WordSearch.WholeWordAtIgnoresCase | analysis_engine.py:39 | whether the term occurs whole-word at a position depends only on the term's case-insensitive form |
| WordSearch.SearchIgnoresCase | analysis_engine.py:39 | two terms equal ignoring case are found in exactly the same texts |
| WordSearch.NothingInEmptyText | analysis_engine.py:39 | no non-empty term is found in the empty text |
| WordSearch.TrailingNonWordNeedsWordAfter | analysis_engine.py:35-39 | a term ending in a non-word character (`C++`) matches only where a word character follows it |
| Scenarios.CppNotSeenBeforeSpace | analysis_engine.py:35-40 | `C++` is not detected in "C++ and Java", because a space follows it |
| Scenarios.CppSeenBeforeDigit | analysis_engine.py:35-40 | the vocabulary term `C++`, and its lower-case spelling `c++`, are detected in "C++17 and Java" |
| StringOrder.LessIrreflexive | analysis_engine.py:56 | no string sorts before itself |
| StringOrder.LessTransitive | analysis_engine.py:56 | the string order used by `sorted` is transitive |
| StringOrder.LessTotal | analysis_engine.py:56 | any two different strings are ordered one way or the other |
| StringOrder.LessAsymmetric | analysis_engine.py:56 | two strings are never each before the other |
| StringOrder.Insert | analysis_engine.py:56 | inserting into a strictly ascending list keeps it strictly ascending, adds exactly the new element, and leaves the list unchanged when the element was present |
| StringOrder.SortedSet | analysis_engine.py:56 | `sorted(list(set(s)))` is strictly ascending and has exactly the elements of s |
| StringOrder.SortedSetLength | analysis_engine.py:132-133 | a list without repetitions keeps its length through `sorted(list(set(...)))` |
| StringOrder.StrictlySortedUnique | analysis_engine.py:56 | two strictly ascending lists with the same elements are equal, so the sorted output is determined by its set of elements |
| Normalization.LookupFrom | analysis_engine.py:82 | `SKILL_NORMALIZATION_MAP.get(key)` returns the expansion stored under key when an entry has it, and nothing when no entry has that abbreviation |
| Normalization.FirstAbbreviationFrom | analysis_engine.py:88 | the reverse lookup `next(abbr for abbr, full in ... if full.upper() == skill.upper())` returns the abbreviation of the first entry whose expansion equals the skill ignoring case, and nothing when there is none |
| Normalization.TableFacts | analysis_engine.py:7-14 | abbreviations are upper-case with 2 or 3 letters and pairwise different, and expansions are longer than 3 characters with pairwise different lengths |
| Normalization.SpellsAtMostOne | analysis_engine.py:7-14 | a skill spells (as abbreviation or expansion, ignoring case) at most one table entry |
| Normalization.KeyOfSpelling | analysis_engine.py:102-110 | a skill that spells a table entry gets that entry's abbreviation as its key |
| Normalization.KeyOfPlain | analysis_engine.py:104-110 | a skill outside the table gets its upper-cased form as its key |
| Normalization.KeyIffEquivalent | analysis_engine.py:102-110 | two skills have the same key iff they are equal ignoring case or spell the same table entry |
| Normalization.EntryShareKey | analysis_engine.py:102-110 | an abbreviation and its expansion both have the abbreviation as key |
| Heuristic.UpperRunMaximal | analysis_engine.py:26 | the greedy `[A-Z]+` run is all capitals and stops at the first non-capital |
| Heuristic.LowerRunMaximal | analysis_engine.py:26 | the greedy `[a-z]+` run is all lower-case and stops at the first non-lower-case letter |
| Heuristic.NameFromFirstFit | analysis_engine.py:27 | the names of the third alternative are tried in their listed order; the first one spelled at the position and followed by a `\b` is taken, and none is taken when no name fits |
| Heuristic.NameMatch | analysis_engine.py:27 | a match of the third alternative is one of the listed names, at least 3 characters long |
| Heuristic.CamelMatch | analysis_engine.py:26 | two or more capitals followed by lower-case letters form a match of the first alternative |
| Heuristic.SlashMatch | analysis_engine.py:26 | two runs of at least two capitals joined by `/` form a match of the second alternative |
| Heuristic.UpperMatch | analysis_engine.py:26 | once two or more capitals are taken, the first two alternatives extend the match within the text and never shorten it |
| Heuristic.MatchAt | analysis_engine.py:26-28 | a match at a position has at least 2 characters and ends inside the text |
| Heuristic.UpperMatchShape | analysis_engine.py:26 | what the first two alternatives match is `[A-Z]{2,}[a-z]+` or `[A-Z]{2,}(/[A-Z]{2,})?` |
| Heuristic.MatchShape | analysis_engine.py:26-28 | every match has the form of one of the three alternatives |
| Heuristic.ShapeChars | analysis_engine.py:26-28 | a token of any of the three forms consists of ASCII letters and slashes only |
| Heuristic.ScanFrom | analysis_engine.py:26-28 | `findall` reports matches inside the text, left to right and without overlap |
| Heuristic.ScanFromMatches | analysis_engine.py:26-28 | every reported span is the pattern's match at its start |
| Heuristic.ScanFromMissesNothing | analysis_engine.py:26-28 | every position at or after the start where the pattern matches lies inside a reported span |
| Heuristic.Scan | analysis_engine.py:26-28 | the matches in the whole text lie in the text, in order and without overlap |
| Heuristic.ScanMatches | analysis_engine.py:26-28 | each match `findall` reports in the whole text is the pattern's match at its start |
| Heuristic.ScanMissesNothing | analysis_engine.py:26-28 | `findall` over the whole text skips no position where the pattern matches |
| Heuristic.Tokens | analysis_engine.py:26-28 | every token `findall` returns has at least 2 characters |
| Heuristic.TokenFacts | analysis_engine.py:26-28 | every token has one of the pattern's three forms and holds only letters and slashes |
| Heuristic.SpacelessTokens | analysis_engine.py:26-28 | no token contains a space |
| Extraction.VocabularyFacts | analysis_engine.py:31-36 | every vocabulary term has at least 3 characters |
| Extraction.FoundTermsMembers | analysis_engine.py:38-40 | the first loop adds a term iff it is one of the terms it walks and `re.search` finds it whole-word |
| Extraction.KeptKeywordsMembers | analysis_engine.py:43-46 | the second loop adds a keyword iff it is one of the keywords it walks, longer than 2 characters and not a stop word once lower-cased |
| Extraction.CandidateSetMembers | analysis_engine.py:23-46 | a string is a candidate iff it is a vocabulary term, in its vocabulary casing, occurring whole-word ignoring case, or a heuristic token longer than 2 characters whose lower-case form is not a stop word |
| Extraction.CandidatesAreLong | analysis_engine.py:31-46 | every candidate has at least 3 characters, so the two-letter abbreviations `ML`, `DL`, `CV` never become requirements |
| Extraction.KeepFirstOfEachCase | analysis_engine.py:48-55 | the dedup loop keeps entries of the set only, no two of them equal ignoring case, and covers every case class of the set |
| Extraction.KeepFirstIsFirst | analysis_engine.py:48-55 | an entry is kept iff nothing equal to it ignoring case came before it in the iteration order |
| Extraction.SortedRepresentativesDiffer | analysis_engine.py:56 | sorting keeps the kept entries pairwise different ignoring case |
| Extraction.RepresentativesOfCandidates | analysis_engine.py:48-56 | every output entry is a candidate with at least 3 characters, and every candidate has an output entry equal to it ignoring case |
| Extraction.ExtractCandidateSkills | analysis_engine.py:18-56 | the result is strictly ascending; no two entries are equal ignoring case; every entry is a candidate of at least 3 characters; every candidate's case class is represented; an entry is in the result iff it is the first of its class in the set's iteration order |
| Matching.FoundSkillsByTable | analysis_engine.py:71-93 | a requirement is in `found_skills` exactly when it occurs itself in the resume, or it spells a table entry (as abbreviation or expansion) whose abbreviation or expansion occurs |
| Matching.FoundViaEntry | analysis_engine.py:74-91 | a requirement that spells a table entry is found iff the entry's abbreviation or its expansion occurs whole-word in the resume |
| Matching.FoundPlain | analysis_engine.py:75-78 | a requirement outside the table is found iff it occurs whole-word itself |
| Matching.FoundDependsOnlyOnKey | analysis_engine.py:71-110 | requirements with the same normalization key are found in exactly the same resumes |
| Matching.FoundSymmetric | analysis_engine.py:80-91 | requiring an abbreviation or its expansion makes no difference to whether the resume satisfies it |
| Matching.Assign | analysis_engine.py:110 | `table[key] = skill` keeps keys distinct, stores the pair, keeps every other key's entry, and grows the table by one exactly when the key was new |
| Matching.KeyTable | analysis_engine.py:101-110 | the dictionary has distinct keys, holds only pairs of the list, has every key of the list and is no longer than the list |
| Matching.KeyTableStep | analysis_engine.py:110 | one more assignment leaves the new pair plus the earlier entries with other keys |
| Matching.LastOfItsKeyStep | analysis_engine.py:101-110 | an earlier pair stays the last of its key iff the new pair has a different key |
| Matching.KeyTableKeepsLast | analysis_engine.py:101-110 | the dictionary holds a pair iff it is the last pair of the list with its key: a later requirement with the same key overrides an earlier one |
| Matching.KeyTableFullWhenDistinct | analysis_engine.py:101-110 | with all keys different the dictionary keeps every requirement |
| Matching.KeyTableFullOnlyWhenDistinct | analysis_engine.py:101-110 | a dictionary as long as the list means no two requirements shared a key |
| Matching.KeyTableFull | analysis_engine.py:101-110 | the dictionary is as long as the requirement list iff no two requirements share a key |
| Matching.FoundKeyIff | analysis_engine.py:112-118 | a requirement's key is among the keys of the found skills iff that requirement is found |
| Matching.SplitByKeys | analysis_engine.py:121-128 | an entry goes to matched iff its key was found, to missing otherwise, and the two parts together hold every entry |
| Matching.SplitKeepsKeysDistinct | analysis_engine.py:121-128 | each part of the split holds each key once |
| Matching.SkillsOfKeyed | analysis_engine.py:121-128 | a skill is listed iff its keyed pair is in the part |
| Matching.SkillsDistinct | analysis_engine.py:130-133 | skills stored under distinct keys are distinct |
| Matching.MatchSplitLengths | analysis_engine.py:130-133 | `sorted(list(set(...)))` removes nothing from the matched and missing lists |
| Matching.Coverage | analysis_engine.py:135-141 | coverage is 0.0 with no requirements and otherwise times the total gives the matched count; it lies in [0, 1] when matched does not exceed total |
| Matching.MatchSkills | analysis_engine.py:95-150 | both lists are strictly ascending; their lengths add up to at most the number of requirements; the reported counts are the matched length and the requirement count; the coverage is their ratio and lies in [0, 1] |
| Matching.RepresentativeIsRequired | analysis_engine.py:101-110 | a key's representative is one of the requirements |
| Matching.MatchedIffFound | analysis_engine.py:121-133 | a skill is in `Keywords Matched` iff it is the representative of its key and the resume contains it |
| Matching.MissingIffNotFound | analysis_engine.py:121-133 | a skill is in `Missing Skills` iff it is the representative of its key and the resume lacks it |
| Matching.MatchCounts | analysis_engine.py:101-141 | `len(matched) + len(missing)` equals the raw requirement count iff no two requirements share a key |
| Matching.AllRepresentedWhenDistinct | analysis_engine.py:101-110 | with all keys different, every requirement is its key's representative |
| Matching.NoRequirementsReport | analysis_engine.py:135-138 | with no requirements both lists are empty, the total is 0 and the coverage is 0.0 |
| Analysis.ExpansionsHaveSpace | analysis_engine.py:7-14 | every expansion in the table contains a space |
| Analysis.SpacedVocabulary | analysis_engine.py:31-36 | `Machine Learning` and `Deep Learning` are the only vocabulary terms with a space |
| Analysis.CandidateSpellingFull | analysis_engine.py:7-46 | a candidate that spells an expansion is a vocabulary term, and that expansion's abbreviation has two letters |
| Analysis.CandidateKeysDiffer | analysis_engine.py:7-46 | two candidates of at least 3 characters that differ ignoring case have different keys |
| Analysis.ExtractedKeysDistinct | analysis_engine.py:18-110 | the extracted requirements have pairwise different normalization keys |
| Analysis.ExtractAndMatch | analysis_engine.py:61-150 | the total is the number of extracted requirements, the found count is the matched length, and both lists are strictly ascending |
| Analysis.ExtractAndMatchPartition | analysis_engine.py:61-133 | every extracted requirement is in `Keywords Matched` if the resume contains it and in `Missing Skills` otherwise, and nothing else is in either list |
| Analysis.ExtractAndMatchCounts | analysis_engine.py:121-148 | `JD Requirements Found` plus the number of missing skills equals `Total JD Requirements` |
| Analysis.CompareMatchData | analysis_engine.py:155-178 | the skill report is exactly the one `extract_and_match_skills` produces and the skill match is its coverage: in [0, 1], the share of extracted requirements found (0.0 when none were extracted); the experience score is always 1.0, and the report carries the fixed experience note |
| Analysis.CompareMatchDataPartition | analysis_engine.py:155-178 | in the returned report every extracted requirement is under `Keywords Matched` iff the resume contains it and under `Missing Skills` otherwise, and the two counts add up to the total |
| Scenarios.NoCandidateInEmptyText | analysis_engine.py:23-46 | nothing is a candidate of an empty job description |
| Scenarios.EmptyJobDescription | analysis_engine.py:23-46 | the empty job description has no candidates |
| Scenarios.SkillFreeJobDescriptionReport | analysis_engine.py:61-141 | a job description without candidates gives empty lists, a total of 0 and coverage 0.0 |
| Scenarios.EmptyJobDescriptionReport | analysis_engine.py:61-141 | the empty job description gives empty lists, a total of 0 and coverage 0.0 |
| MatchingScenarios.LoneRequirementMatched | analysis_engine.py:121-133 | a single requirement the resume contains is the whole matched list |
| MatchingScenarios.AbbreviationMatchedByExpansion | analysis_engine.py:80-84 | the requirement `DL` is matched by a resume that says "deep learning" |

## Left out

- `ml_scorer.py`, `app.py` and `pdf_parser.py` are not part of this model. They hold TF-IDF and embedding similarity over libraries whose code is not visible, a floating-point weighted sum, the Streamlit interface and PDF decoding.
- Unicode: case mapping, `re.IGNORECASE` and `\w` are modelled on ASCII only; other letters are treated as non-word characters that do not change case.
- Python's set iteration order is not modelled; it is a parameter, constrained only to enumerate the candidate set.
- Matching.Coverage: the result is an exact real, so the rounding of the floating-point division `len(matched_skills) / total_jd_skills` is not modelled.
- Heuristic.MatchAt: its contract states only the length bounds of a match; the form of a match is stated by `Heuristic.MatchShape`, and the scan's use of it by `Heuristic.ScanMatches` and `Heuristic.ScanMissesNothing`.
- The dictionaries returned by `extract_and_match_skills` and `compare_match_data` are records with one field per key; the key strings themselves (`"Keywords Matched"`, …) are not modelled.

=== FILE: analysis.dfy ===
/**
  The whole pipeline: requirements extracted from the job description,
  matched against the resume (`extract_and_match_skills`), and wrapped into
  the final report (`compare_match_data`).
*/
module Analysis {
  import opened Ascii
  import opened StringOrder
  import opened Normalization
  import opened Extraction
  import opened Matching
  import Heuristic

  // ---------------------------------------------------------------------------
  // Why extracted requirements never share a normalization key
  // ---------------------------------------------------------------------------

  /** Every expansion in the table contains a space. */
  lemma ExpansionsHaveSpace(e: Abbreviation)
    requires e in Table
    ensures exists k :: 0 <= k < |e.full| && e.full[k] == ' '
  {
    if e == Table[0] {
      assert e.full[7] == ' ';
    } else if e == Table[1] {
      assert e.full[7] == ' ';
    } else if e == Table[2] {
      assert e.full[4] == ' ';
    } else if e == Table[3] {
      assert e.full[8] == ' ';
    } else {
      assert e.full[4] == ' ';
    }
  }

  /** The only vocabulary terms with a space are `Machine Learning` and `Deep Learning`. */
  lemma SpacedVocabulary(j: int, k: int)
    requires 0 <= j < |Vocabulary| && 0 <= k < |Vocabulary[j]| && Vocabulary[j][k] == ' '
    ensures Vocabulary[j] == "Machine Learning" || Vocabulary[j] == "Deep Learning"
  {
  }

  /** The 16- and 13-character expansions, `Machine Learning` and `Deep Learning`, have two-letter abbreviations. */
  lemma TableShortOfLength(e: Abbreviation)
    requires e in Table && (|e.full| == 16 || |e.full| == 13)
    ensures |e.short| == 2
  {
  }

  /** Upper-casing turns only a space into a space. */
  lemma UpperSpace(c: string, k: int)
    requires 0 <= k < |c| && UpperStr(c)[k] == ' '
    ensures c[k] == ' '
  {
    assert ToUpper(c[k]) == ' ';
  }

  /** A candidate with a space is a vocabulary term: heuristic tokens hold only letters and slashes. */
  lemma SpacedCandidate(jdText: string, c: string, k: int)
    requires c in CandidateSet(jdText) && 0 <= k < |c| && c[k] == ' '
    ensures exists j :: 0 <= j < |Vocabulary| && Vocabulary[j] == c
  {
    CandidateSetMembers(jdText, c);
    assert c !in Heuristic.Tokens(jdText) by {
      Heuristic.SpacelessTokens(jdText, k);
    }
  }

  /** A string that spells an expansion has a space where the expansion has one. */
  lemma SpellingKeepsSpace(c: string, e: Abbreviation, k: int)
    requires 0 <= k < |e.full| && e.full[k] == ' '
    requires UpperStr(c) == UpperStr(e.full)
    ensures 0 <= k < |c| && c[k] == ' '
  {
    assert UpperStr(e.full)[k] == ' ';
    UpperSpace(c, k);
  }

  /** A vocabulary term that spells an expansion is `Machine Learning` or `Deep Learning`, whose abbreviations have two letters. */
  lemma VocabularySpellingFull(c: string, e: Abbreviation, k: int)
    requires e in Table && 0 <= k < |c| && c[k] == ' '
    requires exists j :: 0 <= j < |Vocabulary| && Vocabulary[j] == c
    requires UpperStr(c) == UpperStr(e.full)
    ensures |e.short| == 2
  {
    var j :| 0 <= j < |Vocabulary| && Vocabulary[j] == c;
    SpacedVocabulary(j, k);
    TableShortOfLength(e);
  }

  /** A candidate that spells an expansion is a vocabulary term, and that expansion's abbreviation has two letters. */
  lemma CandidateSpellingFull(jdText: string, c: string, e: Abbreviation)
    requires c in CandidateSet(jdText) && e in Table
    requires UpperStr(c) == UpperStr(e.full)
    ensures c in Vocabulary
    ensures |e.short| == 2
  {
    ExpansionsHaveSpace(e);
    var k :| 0 <= k < |e.full| && e.full[k] == ' ';
    SpellingKeepsSpace(c, e, k);
    SpacedCandidate(jdText, c, k);
    VocabularySpellingFull(c, e, k);
  }

  /** Two candidates of three or more letters that differ ignoring case have different keys. */
  lemma CandidateKeysDiffer(jdText: string, s: string, t: string)
    requires s in CandidateSet(jdText) && t in CandidateSet(jdText)
    requires |s| >= 3 && |t| >= 3
    requires LowerStr(s) != LowerStr(t)
    ensures Key(s) != Key(t)
  {
    KeyIffEquivalent(s, t);
    CaseAgreement(s, t);
    TableFacts();
    forall e | e in Table && Spells(s, e) ensures !Spells(t, e) {
      if UpperStr(s) == UpperStr(e.full) {
        CandidateSpellingFull(jdText, s, e);
      } else if UpperStr(t) == UpperStr(e.full) {
        CandidateSpellingFull(jdText, t, e);
      }
    }
  }

  /** The extracted requirements have pairwise different normalization keys. */
  lemma ExtractedKeysDistinct(jdText: string, iteration: seq<string>)
    requires (set s | s in iteration) == CandidateSet(jdText)
    ensures KeysAllDifferent(Keyed(ExtractCandidateSkills(jdText, iteration)))
  {
    var skills := ExtractCandidateSkills(jdText, iteration);
    var items := Keyed(skills);
    forall i, j | 0 <= i < j < |items| ensures items[i].key != items[j].key {
      assert skills[i] in skills && skills[j] in skills;
      CandidateKeysDiffer(jdText, skills[i], skills[j]);
    }
  }

  // ---------------------------------------------------------------------------
  // `extract_and_match_skills` and `compare_match_data`
  // ---------------------------------------------------------------------------

  /**
    `extract_and_match_skills`, with the job description's candidate set
    enumerated in the order `iteration`.
  */
  function ExtractAndMatch(resumeText: string, jdText: string, iteration: seq<string>): (r: SkillAnalysis)
    requires (set s | s in iteration) == CandidateSet(jdText)
    ensures r.report.totalRequirements == |ExtractCandidateSkills(jdText, iteration)|
    ensures r.report.requirementsFound == |r.report.matched|
    ensures StrictlySorted(r.report.matched) && StrictlySorted(r.report.missing)
    ensures r.coverage == Coverage(r.report.requirementsFound, r.report.totalRequirements)
  {
    MatchSkills(resumeText, ExtractCandidateSkills(jdText, iteration))
  }

  /**
    Every extracted requirement ends up in exactly one of the two lists:
    `Keywords Matched` when the resume contains it (directly or through its
    abbreviation or expansion), `Missing Skills` otherwise.
  */
  lemma ExtractAndMatchPartition(resumeText: string, jdText: string, iteration: seq<string>, x: string)
    requires (set s | s in iteration) == CandidateSet(jdText)
    ensures var skills := ExtractCandidateSkills(jdText, iteration);
      var report := ExtractAndMatch(resumeText, jdText, iteration).report;
      && (x in report.matched <==> x in skills && IsFound(resumeText, x))
      && (x in report.missing <==> x in skills && !IsFound(resumeText, x))
  {
    var skills := ExtractCandidateSkills(jdText, iteration);
    ExtractedKeysDistinct(jdText, iteration);
    AllRepresentedWhenDistinct(skills, x);
    MatchedIffFound(resumeText, skills, x);
    MissingIffNotFound(resumeText, skills, x);
  }

  /** The matched and missing counts add up to the number of extracted requirements. */
  lemma ExtractAndMatchCounts(resumeText: string, jdText: string, iteration: seq<string>)
    requires (set s | s in iteration) == CandidateSet(jdText)
    ensures var report := ExtractAndMatch(resumeText, jdText, iteration).report;
      report.requirementsFound + |report.missing| == report.totalRequirements
  {
    var skills := ExtractCandidateSkills(jdText, iteration);
    ExtractedKeysDistinct(jdText, iteration);
    MatchCounts(resumeText, skills);
  }

  /** The note stored under `Experience Analysis`. */
  const ExperienceNote: string :=
    "Experience analysis feature is under development. Placeholder score of 1.0 used."

  /** `report_data`: the skill report and the experience note. */
  datatype ReportData = ReportData(skillsAnalysis: SkillReport, experienceNote: string)

  /** The triple `compare_match_data` returns. */
  datatype Comparison = Comparison(skillMatch: real, experienceScore: real, report: ReportData)

  /** `compare_match_data`: the skill analysis, the placeholder experience score and the combined report. */
  function CompareMatchData(resumeText: string, jdText: string, iteration: seq<string>): (r: Comparison)
    requires (set s | s in iteration) == CandidateSet(jdText)
    ensures 0.0 <= r.skillMatch <= 1.0
    ensures r.report.skillsAnalysis.totalRequirements == |ExtractCandidateSkills(jdText, iteration)|
    ensures r.skillMatch == Coverage(r.report.skillsAnalysis.requirementsFound, r.report.skillsAnalysis.totalRequirements)
    ensures r.experienceScore == 1.0
    ensures r.report.experienceNote == ExperienceNote
    ensures r.report.skillsAnalysis == ExtractAndMatch(resumeText, jdText, iteration).report
    ensures r.skillMatch == ExtractAndMatch(resumeText, jdText, iteration).coverage
  {
    var analysis := ExtractAndMatch(resumeText, jdText, iteration);
    Comparison(analysis.coverage, 1.0, ReportData(analysis.report, ExperienceNote))
  }

  /**
    In the report `compare_match_data` returns, every extracted requirement
    is in `Keywords Matched` when the resume contains it and in
    `Missing Skills` otherwise, and the two counts add up to the total.
  */
  lemma CompareMatchDataPartition(resumeText: string, jdText: string, iteration: seq<string>, x: string)
    requires (set s | s in iteration) == CandidateSet(jdText)
    ensures var skills := ExtractCandidateSkills(jdText, iteration);
      var report := CompareMatchData(resumeText, jdText, iteration).report.skillsAnalysis;
      && (x in report.matched <==> x in skills && IsFound(resumeText, x))
      && (x in report.missing <==> x in skills && !IsFound(resumeText, x))
      && report.requirementsFound + |report.missing| == report.totalRequirements
  {
    ExtractAndMatchPartition(resumeText, jdText, iteration, x);
    ExtractAndMatchCounts(resumeText, jdText, iteration);
  }
}

=== FILE: ascii.dfy ===
/**
  ASCII character classes and case mapping.

  Python's `str.lower`, `str.upper`, `re.IGNORECASE` and `\w` follow Unicode;
  this model restricts them to their ASCII behaviour: only `A`-`Z` and `a`-`z`
  change case, and the word characters are `[A-Za-z0-9_]`.
*/
module Ascii {

  predicate IsUpper(c: char) { 'A' <= c <= 'Z' }

  predicate IsLower(c: char) { 'a' <= c <= 'z' }

  predicate IsDigit(c: char) { '0' <= c <= '9' }

  /** Membership in the regular-expression class `\w`. */
  predicate IsWordChar(c: char) { IsUpper(c) || IsLower(c) || IsDigit(c) || c == '_' }

  function ToLower(c: char): (d: char)
    ensures !IsUpper(d)
    ensures IsWordChar(d) == IsWordChar(c)
    ensures IsLower(c) || IsUpper(c) || d == c
  {
    if IsUpper(c) then (c as int + 32) as char else c
  }

  function ToUpper(c: char): (d: char)
    ensures !IsLower(d)
    ensures IsWordChar(d) == IsWordChar(c)
    ensures IsLower(c) || IsUpper(c) || d == c
  {
    if IsLower(c) then (c as int - 32) as char else c
  }

  /** `s.lower()` */
  function LowerStr(s: string): (r: string)
    ensures |r| == |s|
  {
    seq(|s|, i requires 0 <= i < |s| => ToLower(s[i]))
  }

  /** `s.upper()` */
  function UpperStr(s: string): (r: string)
    ensures |r| == |s|
  {
    seq(|s|, i requires 0 <= i < |s| => ToUpper(s[i]))
  }

  /** Two characters agree under upper-casing exactly when they agree under lower-casing. */
  lemma CharCaseAgreement(a: char, b: char)
    ensures ToUpper(a) == ToUpper(b) <==> ToLower(a) == ToLower(b)
  {
  }

  /** Comparing `a.upper() == b.upper()` and `a.lower() == b.lower()` is the same test. */
  lemma CaseAgreement(a: string, b: string)
    ensures UpperStr(a) == UpperStr(b) <==> LowerStr(a) == LowerStr(b)
  {
    if UpperStr(a) == UpperStr(b) {
      forall i | 0 <= i < |a|
        ensures LowerStr(a)[i] == LowerStr(b)[i]
      {
        assert UpperStr(a)[i] == UpperStr(b)[i];
        CharCaseAgreement(a[i], b[i]);
      }
    }
    if LowerStr(a) == LowerStr(b) {
      forall i | 0 <= i < |a|
        ensures UpperStr(a)[i] == UpperStr(b)[i]
      {
        assert LowerStr(a)[i] == LowerStr(b)[i];
        CharCaseAgreement(a[i], b[i]);
      }
    }
  }

}

=== FILE: extraction.dfy ===
/**
  Required-skill extraction from job-description text
  (`extract_candidate_skills_from_jd`): vocabulary terms found whole-word,
  united with the capitalization heuristic's tokens that pass the filter,
  reduced to one entry per case-insensitive class and sorted.
*/
module Extraction {
  import opened Ascii
  import opened WordSearch
  import opened StringOrder
  import Heuristic

  /** `common_tech_terms`, in the order they are tried. */
  const Vocabulary: seq<string> := [
    "Python", "TensorFlow", "PyTorch", "scikit-learn", "Pandas", "NumPy",
    "BERT", "TF-IDF", "NLP", "Machine Learning", "Deep Learning",
    "AWS", "Azure", "GCP", "Docker", "Kubernetes", "Git", "SQL",
    "Flask", "FastAPI", "SageMaker", "MLOps", "RoBERTa", "Keras", "Java", "C++"
  ]

  /** Generic job-posting words the heuristic must not report. */
  const Stoplist: seq<string> :=
    ["model", "deep", "data", "software", "engineer", "developer", "systems", "design", "testing"]

  lemma VocabularyFacts()
    ensures forall j :: 0 <= j < |Vocabulary| ==> |Vocabulary[j]| >= 3
  {
  }

  /** The filter a heuristic token must pass: longer than two characters and not a stop word. */
  predicate Kept(keyword: string)
  {
    |keyword| > 2 && LowerStr(keyword) !in Stoplist
  }

  /** The first loop: the terms of `terms` found whole-word in the text, in order. */
  function FoundTerms(jdText: string, terms: seq<string>): seq<string>
  {
    if |terms| == 0 then []
    else (if Search(jdText, terms[0]) then [terms[0]] else []) + FoundTerms(jdText, terms[1..])
  }

  /** A term is added by the first loop exactly when it is listed and found. */
  lemma {:induction false} FoundTermsMembers(jdText: string, terms: seq<string>, s: string)
    ensures s in FoundTerms(jdText, terms) <==> s in terms && Search(jdText, s)
  {
    if |terms| > 0 {
      FoundTermsMembers(jdText, terms[1..], s);
      assert terms == [terms[0]] + terms[1..];
    }
  }

  /** The second loop: the keywords that pass the filter, in order. */
  function KeptKeywords(keywords: seq<string>): seq<string>
  {
    if |keywords| == 0 then []
    else (if Kept(keywords[0]) then [keywords[0]] else []) + KeptKeywords(keywords[1..])
  }

  /** A keyword is added by the second loop exactly when it passes the filter. */
  lemma {:induction false} KeptKeywordsMembers(keywords: seq<string>, s: string)
    ensures s in KeptKeywords(keywords) <==> s in keywords && Kept(s)
  {
    if |keywords| > 0 {
      KeptKeywordsMembers(keywords[1..], s);
      assert keywords == [keywords[0]] + keywords[1..];
    }
  }

  /** `candidate_skills` once both loops have run. */
  function CandidateSet(jdText: string): set<string>
  {
    set s | s in FoundTerms(jdText, Vocabulary) + KeptKeywords(Heuristic.Tokens(jdText))
  }

  /** Membership in the candidate set, with the search replaced by its declarative meaning. */
  lemma CandidateSetMembers(jdText: string, s: string)
    ensures s in CandidateSet(jdText) <==>
      || (s in Vocabulary && OccursWholeWord(jdText, s))
      || (s in Heuristic.Tokens(jdText) && Kept(s))
  {
    FoundTermsMembers(jdText, Vocabulary, s);
    KeptKeywordsMembers(Heuristic.Tokens(jdText), s);
  }

  /** Every candidate is at least three characters long. */
  lemma CandidatesAreLong(jdText: string, s: string)
    requires s in CandidateSet(jdText)
    ensures |s| >= 3
  {
    VocabularyFacts();
    FoundTermsMembers(jdText, Vocabulary, s);
    KeptKeywordsMembers(Heuristic.Tokens(jdText), s);
  }

  /** The lower-cased forms of a list's entries (`lower_skills`). */
  function LowersOf(skills: seq<string>): set<string>
  {
    set s | s in skills :: LowerStr(s)
  }

  /**
    `unique` holds one representative of every case-insensitive class of
    `source`: its entries come from `source`, no two are equal ignoring case,
    and every entry of `source` has one of them as its lower-cased equal.
  */
  ghost predicate OneOfEachCase(source: seq<string>, unique: seq<string>)
  {
    && (forall x :: x in unique ==> x in source)
    && (forall i, j :: 0 <= i < j < |unique| ==> LowerStr(unique[i]) != LowerStr(unique[j]))
    && (forall x :: x in source ==> LowerStr(x) in LowersOf(unique))
  }

  /** The loop step for a skill whose lower-cased form was already seen. */
  lemma KeepStepSeen(iteration: seq<string>, unique: seq<string>)
    requires |iteration| > 0
    requires OneOfEachCase(iteration[..|iteration| - 1], unique)
    requires LowerStr(iteration[|iteration| - 1]) in LowersOf(unique)
    ensures OneOfEachCase(iteration, unique)
  {
    var n := |iteration| - 1;
    assert iteration == iteration[..n] + [iteration[n]];
  }

  /** The loop step for a skill of a new case-insensitive class. */
  lemma KeepStepNew(iteration: seq<string>, unique: seq<string>)
    requires |iteration| > 0
    requires OneOfEachCase(iteration[..|iteration| - 1], unique)
    requires LowerStr(iteration[|iteration| - 1]) !in LowersOf(unique)
    ensures OneOfEachCase(iteration, unique + [iteration[|iteration| - 1]])
  {
    var n := |iteration| - 1;
    var skill := iteration[n];
    var r := unique + [skill];
    assert iteration == iteration[..n] + [skill];
    assert LowersOf(r) == LowersOf(unique) + {LowerStr(skill)};
    forall i, j | 0 <= i < j < |r| ensures LowerStr(r[i]) != LowerStr(r[j]) {
      if j == n || j == |unique| {
        assert r[i] in unique;
      }
    }
  }

  /**
    The loop that keeps a skill only if its lower-cased form has not been seen,
    run over the set's elements in the order `iteration` lists them.
  */
  function KeepFirstOfEachCase(iteration: seq<string>): (unique: seq<string>)
    ensures OneOfEachCase(iteration, unique)
  {
    if |iteration| == 0 then []
    else
      var n := |iteration| - 1;
      var unique := KeepFirstOfEachCase(iteration[..n]);
      if LowerStr(iteration[n]) in LowersOf(unique) then
        KeepStepSeen(iteration, unique);
        unique
      else
        KeepStepNew(iteration, unique);
        unique + [iteration[n]]
  }

  /** `x` occurs in `iteration` with no case-insensitive equal before its first occurrence. */
  ghost predicate FirstOfItsCase(iteration: seq<string>, x: string)
  {
    exists i :: 0 <= i < |iteration| && iteration[i] == x
      && forall j :: 0 <= j < i ==> LowerStr(iteration[j]) != LowerStr(x)
  }

  lemma FirstOfItsCaseSnoc(iteration: seq<string>, x: string)
    requires |iteration| > 0
    ensures var n := |iteration| - 1;
      FirstOfItsCase(iteration, x) <==>
        || FirstOfItsCase(iteration[..n], x)
        || (x == iteration[n] && forall j :: 0 <= j < n ==> LowerStr(iteration[j]) != LowerStr(x))
  {
    var n := |iteration| - 1;
    var init := iteration[..n];
    if FirstOfItsCase(iteration, x) {
      var i :| 0 <= i < |iteration| && iteration[i] == x
        && forall j :: 0 <= j < i ==> LowerStr(iteration[j]) != LowerStr(x);
      if i < n {
        assert init[i] == x;
        assert forall j :: 0 <= j < i ==> LowerStr(init[j]) != LowerStr(x);
      }
    }
    if FirstOfItsCase(init, x) {
      var i :| 0 <= i < |init| && init[i] == x
        && forall j :: 0 <= j < i ==> LowerStr(init[j]) != LowerStr(x);
      assert iteration[i] == x;
      assert forall j :: 0 <= j < i ==> LowerStr(iteration[j]) != LowerStr(x);
    }
    if x == iteration[n] && forall j :: 0 <= j < n ==> LowerStr(iteration[j]) != LowerStr(x) {
      assert FirstOfItsCase(iteration, x);
    }
  }

  /** The representative kept for each class is the first of its class in iteration order. */
  lemma {:induction false} KeepFirstIsFirst(iteration: seq<string>, x: string)
    ensures x in KeepFirstOfEachCase(iteration) <==> FirstOfItsCase(iteration, x)
  {
    if |iteration| > 0 {
      var n := |iteration| - 1;
      var init := iteration[..n];
      var unique := KeepFirstOfEachCase(init);
      KeepFirstIsFirst(init, x);
      FirstOfItsCaseSnoc(iteration, x);
      if LowerStr(iteration[n]) in LowersOf(unique) {
        if x == iteration[n] && !FirstOfItsCase(init, x) {
          var y :| y in unique && LowerStr(y) == LowerStr(x);
          var k :| 0 <= k < n && init[k] == y;
          assert LowerStr(iteration[k]) == LowerStr(x);
        }
      } else {
        if x == iteration[n] {
          forall j | 0 <= j < n ensures LowerStr(iteration[j]) != LowerStr(x) {
            assert init[j] in init;
          }
        }
      }
    }
  }

  /** Sorting keeps the representatives pairwise different ignoring case. */
  lemma SortedRepresentativesDiffer(unique: seq<string>)
    requires forall i, j :: 0 <= i < j < |unique| ==> LowerStr(unique[i]) != LowerStr(unique[j])
    ensures var skills := SortedSet(unique);
      forall i, j :: 0 <= i < j < |skills| ==> LowerStr(skills[i]) != LowerStr(skills[j])
  {
    var skills := SortedSet(unique);
    forall i, j | 0 <= i < j < |skills| ensures LowerStr(skills[i]) != LowerStr(skills[j]) {
      StrictlySortedDistinct(skills, i, j);
      assert skills[i] in skills && skills[j] in skills;
      assert skills[i] in unique && skills[j] in unique;
      var a :| 0 <= a < |unique| && unique[a] == skills[i];
      var b :| 0 <= b < |unique| && unique[b] == skills[j];
      assert a != b;
    }
  }

  /** The requirements are candidates, and every candidate is represented. */
  lemma RepresentativesOfCandidates(jdText: string, iteration: seq<string>)
    requires (set s | s in iteration) == CandidateSet(jdText)
    ensures var skills := SortedSet(KeepFirstOfEachCase(iteration));
      && (forall s :: s in skills ==> s in CandidateSet(jdText) && |s| >= 3)
      && (forall c :: c in CandidateSet(jdText) ==> exists s :: s in skills && LowerStr(s) == LowerStr(c))
  {
    var unique := KeepFirstOfEachCase(iteration);
    var skills := SortedSet(unique);
    forall s | s in skills ensures s in CandidateSet(jdText) && |s| >= 3 {
      assert s in iteration;
      assert s in (set s | s in iteration);
      CandidatesAreLong(jdText, s);
    }
    forall c | c in CandidateSet(jdText) ensures exists s :: s in skills && LowerStr(s) == LowerStr(c) {
      assert c in (set s | s in iteration);
      assert LowerStr(c) in LowersOf(unique);
      var s :| s in unique && LowerStr(s) == LowerStr(c);
      assert s in skills;
    }
  }

  /**
    `extract_candidate_skills_from_jd`, with the candidate set enumerated in the
    order `iteration` (Python leaves that order to the set's hashing).
  */
  function ExtractCandidateSkills(jdText: string, iteration: seq<string>): (skills: seq<string>)
    requires (set s | s in iteration) == CandidateSet(jdText)
    ensures StrictlySorted(skills)
    ensures forall i, j :: 0 <= i < j < |skills| ==> LowerStr(skills[i]) != LowerStr(skills[j])
    ensures forall s :: s in skills ==> s in CandidateSet(jdText) && |s| >= 3
    ensures forall c :: c in CandidateSet(jdText) ==> exists s :: s in skills && LowerStr(s) == LowerStr(c)
    ensures forall s :: s in skills <==> FirstOfItsCase(iteration, s)
  {
    var unique := KeepFirstOfEachCase(iteration);
    forall s ensures s in SortedSet(unique) <==> FirstOfItsCase(iteration, s) {
      KeepFirstIsFirst(iteration, s);
    }
    SortedRepresentativesDiffer(unique);
    RepresentativesOfCandidates(jdText, iteration);
    SortedSet(unique)
  }
}

=== FILE: heuristic.dfy ===
/**
  The capitalization heuristic of the skill extractor:
  `re.findall(r'[A-Z]{2,}[a-z]+|[A-Z]{2,}(?:\/[A-Z]{2,})?|(?:Python|...|SQL)\b', text)`
  written out as a scanner.  At each position the three alternatives are
  tried in order, each greedily; a match resumes the scan after its end and
  a failure moves on by one character.
*/
module Heuristic {
  import opened Ascii
  import opened Options
  import WordSearch

  /** The names of the third alternative, in the order the pattern lists them. */
  const Names: seq<string> :=
    ["Python", "PyTorch", "TensorFlow", "AWS", "Azure", "GCP", "Docker", "Kubernetes", "Git", "SQL"]

  predicate AllUpper(s: string) { forall k :: 0 <= k < |s| ==> IsUpper(s[k]) }

  predicate AllLower(s: string) { forall k :: 0 <= k < |s| ==> IsLower(s[k]) }

  /** `[A-Z]{2,}[a-z]+` */
  ghost predicate CamelShape(t: string)
  {
    exists u :: 2 <= u < |t| && AllUpper(t[..u]) && AllLower(t[u..])
  }

  /** `[A-Z]{2,}(?:\/[A-Z]{2,})?` */
  ghost predicate AcronymShape(t: string)
  {
    || (|t| >= 2 && AllUpper(t))
    || exists p :: 2 <= p && p + 3 <= |t| && t[p] == '/' && AllUpper(t[..p]) && AllUpper(t[p + 1..])
  }

  /** What a single match of the whole pattern can look like. */
  ghost predicate TokenShape(t: string)
  {
    CamelShape(t) || AcronymShape(t) || t in Names
  }

  /** Every character of a heuristic token is an ASCII letter or a slash. */
  ghost predicate LettersAndSlashes(t: string)
  {
    forall k :: 0 <= k < |t| ==> IsUpper(t[k]) || IsLower(t[k]) || t[k] == '/'
  }

  /** Greedy `[A-Z]+` from `i`: the length of the run of capitals starting there. */
  function UpperRun(text: string, i: nat): (n: nat)
    requires i <= |text|
    ensures i + n <= |text|
    decreases |text| - i
  {
    if i < |text| && IsUpper(text[i]) then 1 + UpperRun(text, i + 1) else 0
  }

  /** The run is all capitals and cannot be extended. */
  lemma {:induction false} UpperRunMaximal(text: string, i: nat)
    requires i <= |text|
    ensures AllUpper(text[i..i + UpperRun(text, i)])
    ensures i + UpperRun(text, i) == |text| || !IsUpper(text[i + UpperRun(text, i)])
    decreases |text| - i
  {
    if i < |text| && IsUpper(text[i]) {
      UpperRunMaximal(text, i + 1);
      assert text[i..i + UpperRun(text, i)] == [text[i]] + text[i + 1..i + 1 + UpperRun(text, i + 1)];
    }
  }

  /** Greedy `[a-z]+` from `i`. */
  function LowerRun(text: string, i: nat): (n: nat)
    requires i <= |text|
    ensures i + n <= |text|
    decreases |text| - i
  {
    if i < |text| && IsLower(text[i]) then 1 + LowerRun(text, i + 1) else 0
  }

  lemma {:induction false} LowerRunMaximal(text: string, i: nat)
    requires i <= |text|
    ensures AllLower(text[i..i + LowerRun(text, i)])
    ensures i + LowerRun(text, i) == |text| || !IsLower(text[i + LowerRun(text, i)])
    decreases |text| - i
  {
    if i < |text| && IsLower(text[i]) {
      LowerRunMaximal(text, i + 1);
      assert text[i..i + LowerRun(text, i)] == [text[i]] + text[i + 1..i + 1 + LowerRun(text, i + 1)];
    }
  }

  /** Name `name` is spelled at `i` (case-sensitively) and a `\b` follows it. */
  predicate NameFitsAt(text: string, i: nat, name: string)
  {
    i + |name| <= |text| && text[i..i + |name|] == name && WordSearch.IsBoundary(text, i + |name|)
  }

  /**
    `(?:n0|n1|...)\b` at `i` for the alternatives `names`, trying them from
    index `k` on: the length of the first that fits.
  */
  function NameFrom(text: string, i: nat, names: seq<string>, k: nat): (r: Option<nat>)
    requires k <= |names|
    ensures r.Some? ==> i + r.value <= |text|
    decreases |names| - k
  {
    if k == |names| then None
    else if NameFitsAt(text, i, names[k]) then Some(|names[k]|)
    else NameFrom(text, i, names, k + 1)
  }

  /** The names are tried in order and the first that fits is taken. */
  lemma {:induction false} NameFromFirstFit(text: string, i: nat, names: seq<string>, k: nat)
    requires k <= |names|
    ensures NameFrom(text, i, names, k).Some? ==>
      exists j :: k <= j < |names| && |names[j]| == NameFrom(text, i, names, k).value
        && NameFitsAt(text, i, names[j]) && forall m :: k <= m < j ==> !NameFitsAt(text, i, names[m])
    ensures NameFrom(text, i, names, k).None? ==> forall j :: k <= j < |names| ==> !NameFitsAt(text, i, names[j])
    decreases |names| - k
  {
    if k < |names| && !NameFitsAt(text, i, names[k]) {
      NameFromFirstFit(text, i, names, k + 1);
    }
  }

  lemma NamesFacts()
    ensures forall j :: 0 <= j < |Names| ==> |Names[j]| >= 3 && LettersAndSlashes(Names[j])
  {
  }

  /** First alternative: capitals followed by lower-case letters. */
  lemma CamelMatch(text: string, i: nat, u: nat, l: nat)
    requires i + u + l <= |text| && 2 <= u && 1 <= l
    requires AllUpper(text[i..i + u]) && AllLower(text[i + u..i + u + l])
    ensures CamelShape(text[i..i + (u + l)])
  {
    var t := text[i..i + u + l];
    assert t[..u] == text[i..i + u];
    assert t[u..] == text[i + u..i + u + l];
    assert CamelShape(t);
  }

  /** Second alternative with its optional part: two runs of capitals joined by a slash. */
  lemma SlashMatch(text: string, i: nat, u: nat, v: nat)
    requires i + u + 1 + v <= |text| && 2 <= u && 2 <= v && text[i + u] == '/'
    requires AllUpper(text[i..i + u]) && AllUpper(text[i + u + 1..i + u + 1 + v])
    ensures AcronymShape(text[i..i + (u + 1 + v)])
  {
    var t := text[i..i + u + 1 + v];
    assert t[..u] == text[i..i + u];
    assert t[u + 1..] == text[i + u + 1..i + u + 1 + v];
    assert AcronymShape(t);
  }

  /** Third alternative: one of the listed names. */
  lemma NameMatch(text: string, i: nat, r: Option<nat>)
    requires r == NameFrom(text, i, Names, 0) && r.Some?
    ensures 3 <= r.value && i + r.value <= |text| && text[i..i + r.value] in Names
  {
    NamesFacts();
    NameFromFirstFit(text, i, Names, 0);
    var j :| 0 <= j < |Names| && |Names[j]| == r.value && NameFitsAt(text, i, Names[j]);
    assert text[i..i + r.value] == Names[j];
  }

  /**
    The first two alternatives once `[A-Z]{2,}` has taken the run of `u`
    capitals at `i`: lower-case letters after it, else an optional slash and
    a second run of capitals.
  */
  function UpperMatch(text: string, i: nat, u: nat): (n: nat)
    requires i + u <= |text| && 2 <= u
    ensures u <= n && i + n <= |text|
  {
    var l := LowerRun(text, i + u);
    if l >= 1 then u + l
    else if i + u < |text| && text[i + u] == '/' && UpperRun(text, i + u + 1) >= 2 then
      u + 1 + UpperRun(text, i + u + 1)
    else u
  }

  /** The length of the match the pattern makes at position `i`, if any. */
  function MatchAt(text: string, i: nat): (r: Option<nat>)
    requires i <= |text|
    ensures r.Some? ==> 2 <= r.value && i + r.value <= |text|
  {
    var u := UpperRun(text, i);
    if u >= 2 then Some(UpperMatch(text, i, u))
    else
      var r := NameFrom(text, i, Names, 0);
      if r.Some? then NamesFacts(); NameFromFirstFit(text, i, Names, 0); r else r
  }

  /** A match of the first two alternatives has their form. */
  lemma UpperMatchShape(text: string, i: nat)
    requires i <= |text| && UpperRun(text, i) >= 2
    ensures var t := text[i..i + UpperMatch(text, i, UpperRun(text, i))];
      CamelShape(t) || AcronymShape(t)
  {
    var u := UpperRun(text, i);
    UpperRunMaximal(text, i);
    var l := LowerRun(text, i + u);
    LowerRunMaximal(text, i + u);
    if l >= 1 {
      CamelMatch(text, i, u, l);
    } else if i + u < |text| && text[i + u] == '/' && UpperRun(text, i + u + 1) >= 2 {
      UpperRunMaximal(text, i + u + 1);
      SlashMatch(text, i, u, UpperRun(text, i + u + 1));
    } else {
      assert AcronymShape(text[i..i + u]);
    }
  }

  /** Every match has the form of one of the pattern's three alternatives. */
  lemma MatchShape(text: string, i: nat)
    requires i <= |text| && MatchAt(text, i).Some?
    ensures TokenShape(text[i..i + MatchAt(text, i).value])
  {
    if UpperRun(text, i) >= 2 {
      UpperMatchShape(text, i);
    } else {
      NameMatch(text, i, NameFrom(text, i, Names, 0));
    }
  }

  lemma ShapeChars(t: string)
    requires TokenShape(t)
    ensures LettersAndSlashes(t)
  {
    if t in Names {
      NamesFacts();
      var j :| 0 <= j < |Names| && Names[j] == t;
    } else if CamelShape(t) {
      var u :| 2 <= u < |t| && AllUpper(t[..u]) && AllLower(t[u..]);
      forall k | 0 <= k < |t| ensures IsUpper(t[k]) || IsLower(t[k]) {
        if k < u {
          assert t[..u][k] == t[k];
        } else {
          assert t[u..][k - u] == t[k];
        }
      }
    } else if AcronymShape(t) && !AllUpper(t) {
      var p :| 2 <= p && p + 3 <= |t| && t[p] == '/' && AllUpper(t[..p]) && AllUpper(t[p + 1..]);
      forall k | 0 <= k < |t| ensures IsUpper(t[k]) || t[k] == '/' {
        if k < p {
          assert t[..p][k] == t[k];
        } else if k > p {
          assert t[p + 1..][k - p - 1] == t[k];
        }
      }
    }
  }

  /** A match of the pattern: where it starts and how long it is. */
  datatype Span = Span(start: nat, len: nat)

  ghost predicate Covered(spans: seq<Span>, p: int)
  {
    exists k :: 0 <= k < |spans| && spans[k].start <= p < spans[k].start + spans[k].len
  }

  /** The pattern's match at every position of `text`. */
  function MatchTable(text: string): (m: seq<Option<nat>>)
    ensures |m| == |text|
    ensures forall p :: 0 <= p < |m| ==> m[p] == MatchAt(text, p)
  {
    seq(|text|, p requires 0 <= p < |text| => MatchAt(text, p))
  }

  /** Every match in the table is non-empty and ends inside the text. */
  ghost predicate WellFormed(m: seq<Option<nat>>)
  {
    forall p :: 0 <= p < |m| && m[p].Some? ==> 0 < m[p].value && p + m[p].value <= |m|
  }

  lemma MatchTableWellFormed(text: string)
    ensures WellFormed(MatchTable(text))
  {
  }

  /**
    `re.findall` from position `i`, reading the match at each position from
    `m`: the matches, left to right and without overlap.
  */
  function ScanFrom(m: seq<Option<nat>>, i: nat): (spans: seq<Span>)
    requires WellFormed(m) && i <= |m|
    ensures forall k :: 0 <= k < |spans| ==> i <= spans[k].start && spans[k].start + spans[k].len <= |m|
    ensures forall k :: 0 <= k < |spans| - 1 ==> spans[k].start + spans[k].len <= spans[k + 1].start
    decreases |m| - i
  {
    if i == |m| then []
    else
      match m[i]
      case Some(n) => [Span(i, n)] + ScanFrom(m, i + n)
      case None => ScanFrom(m, i + 1)
  }

  /** Each span `findall` reports is a match of the pattern at its start. */
  lemma {:induction false} ScanFromMatches(m: seq<Option<nat>>, i: nat, k: nat)
    requires WellFormed(m) && i <= |m| && k < |ScanFrom(m, i)|
    ensures ScanFrom(m, i)[k].start < |m| && m[ScanFrom(m, i)[k].start] == Some(ScanFrom(m, i)[k].len)
    decreases |m| - i
  {
    if i < |m| {
      match m[i]
      case Some(n) =>
        if k > 0 {
          ScanFromMatches(m, i + n, k - 1);
        }
      case None =>
        ScanFromMatches(m, i + 1, k);
    }
  }

  /** A position covered by the later spans stays covered when a span goes in front. */
  lemma CoveredPrepend(span: Span, rest: seq<Span>, p: int)
    ensures Covered(rest, p) || span.start <= p < span.start + span.len ==> Covered([span] + rest, p)
  {
    var spans := [span] + rest;
    if Covered(rest, p) {
      var k :| 0 <= k < |rest| && rest[k].start <= p < rest[k].start + rest[k].len;
      assert spans[k + 1] == rest[k];
    }
    if span.start <= p < span.start + span.len {
      assert spans[0] == span;
    }
  }

  /** `findall` skips no match: every position where the pattern matches lies inside a reported span. */
  lemma {:induction false} ScanFromMissesNothing(m: seq<Option<nat>>, i: nat, p: nat)
    requires WellFormed(m) && i <= p < |m|
    ensures m[p].Some? ==> Covered(ScanFrom(m, i), p)
    decreases |m| - i
  {
    match m[i]
    case Some(n) =>
      if i + n <= p {
        ScanFromMissesNothing(m, i + n, p);
      }
      CoveredPrepend(Span(i, n), ScanFrom(m, i + n), p);
    case None =>
      if i < p {
        ScanFromMissesNothing(m, i + 1, p);
      }
  }

  /** The matches of the heuristic pattern in the whole text. */
  function Scan(text: string): (spans: seq<Span>)
    ensures forall k :: 0 <= k < |spans| ==> spans[k].start + spans[k].len <= |text|
    ensures forall k :: 0 <= k < |spans| - 1 ==> spans[k].start + spans[k].len <= spans[k + 1].start
  {
    MatchTableWellFormed(text);
    ScanFrom(MatchTable(text), 0)
  }

  lemma ScanMatches(text: string, k: nat)
    requires k < |Scan(text)|
    ensures Scan(text)[k].start <= |text| && MatchAt(text, Scan(text)[k].start) == Some(Scan(text)[k].len)
  {
    MatchTableWellFormed(text);
    ScanFromMatches(MatchTable(text), 0, k);
  }

  lemma ScanMissesNothing(text: string, p: nat)
    requires p < |text|
    ensures MatchAt(text, p).Some? ==> Covered(Scan(text), p)
  {
    MatchTableWellFormed(text);
    ScanFromMissesNothing(MatchTable(text), 0, p);
  }

  /** The text a span covers. */
  function SpanText(text: string, span: Span): string
    requires span.start + span.len <= |text|
  {
    text[span.start..span.start + span.len]
  }

  lemma ScanTokenFacts(text: string, k: nat)
    requires k < |Scan(text)|
    ensures var t := SpanText(text, Scan(text)[k]); |t| >= 2 && TokenShape(t) && LettersAndSlashes(t)
  {
    var span := Scan(text)[k];
    ScanMatches(text, k);
    MatchShape(text, span.start);
    ShapeChars(SpanText(text, span));
  }

  /** `keywords_of_interest`: the matched substrings, in order. */
  function Tokens(text: string): (tokens: seq<string>)
    ensures forall t :: t in tokens ==> |t| >= 2
  {
    var spans := Scan(text);
    var tokens := seq(|spans|, k requires 0 <= k < |spans| => SpanText(text, spans[k]));
    assert forall t :: t in tokens ==> |t| >= 2 by {
      forall t | t in tokens ensures |t| >= 2 {
        var k :| 0 <= k < |tokens| && tokens[k] == t;
        ScanTokenFacts(text, k);
      }
    }
    tokens
  }

  /** Every token has one of the pattern's three forms and holds only letters and slashes. */
  lemma TokenFacts(text: string, t: string)
    requires t in Tokens(text)
    ensures TokenShape(t) && LettersAndSlashes(t)
  {
    var tokens := Tokens(text);
    var k :| 0 <= k < |tokens| && tokens[k] == t;
    ScanTokenFacts(text, k);
  }

  /** No token has a space at position `k`. */
  lemma SpacelessTokens(text: string, k: nat)
    ensures forall t :: t in Tokens(text) && k < |t| ==> t[k] != ' '
  {
    forall t | t in Tokens(text) && k < |t|
      ensures t[k] != ' '
    {
      TokenFacts(text, t);
    }
  }
}

=== FILE: matching.dfy ===
/**
  Matching required skills against resume text (`extract_and_match_skills`).
*/
module Matching {
  import opened Ascii
  import opened Options
  import opened WordSearch
  import opened StringOrder
  import opened Normalization

  // ---------------------------------------------------------------------------
  // Finding one required skill in the resume (`get_found_skills`)
  // ---------------------------------------------------------------------------

  /**
    The three checks for one required skill: the skill itself, the expansion
    of the skill when it is an abbreviation, and the abbreviation of the skill
    when it is an expansion, each searched whole-word and ignoring case.
  */
  function IsFound(text: string, skill: string): bool
  {
    || Search(text, skill)
    || (match ExpansionOf(UpperStr(skill))
        case Some(full) => Search(text, full)
        case None => false)
    || (match AbbreviationOf(skill)
        case Some(short) => Search(text, short)
        case None => false)
  }

  /** `found_skills`: the required skills the text contains. */
  function FoundSkills(text: string, required: seq<string>): (found: set<string>)
    ensures forall s :: s in found <==> s in required && IsFound(text, s)
  {
    set s | s in required && IsFound(text, s)
  }

  /** A skill that spells a table entry is found exactly when the entry's abbreviation or expansion occurs. */
  lemma FoundViaEntry(text: string, s: string, e: Abbreviation)
    requires e in Table && Spells(s, e)
    ensures IsFound(text, s) <==> Search(text, e.short) || Search(text, e.full)
  {
    TableFacts();
    var i :| 0 <= i < |Table| && Table[i] == e;
    if UpperStr(s) == e.short {
      CaseAgreement(s, e.short);
      SearchIgnoresCase(text, s, e.short);
      var r := ExpansionOf(UpperStr(s));
      var k :| 0 <= k < |Table| && Table[k] == Abbreviation(UpperStr(s), r.value);
      assert k == i;
      assert AbbreviationOf(s).None? by {
        forall k | 0 <= k < |Table| ensures UpperStr(Table[k].full) != UpperStr(s) {
          assert |Table[k].full| > 3;
        }
      }
    } else {
      CaseAgreement(s, e.full);
      SearchIgnoresCase(text, s, e.full);
      assert ExpansionOf(UpperStr(s)).None? by {
        forall k | 0 <= k < |Table| ensures Table[k].short != UpperStr(s) {
          assert |Table[k].short| <= 3;
        }
      }
      var r := AbbreviationOf(s);
      assert r.Some?;
      var k :| 0 <= k < |Table| && Table[k].short == r.value && UpperStr(Table[k].full) == UpperStr(s);
      SpellsAtMostOne(s, e, Table[k]);
    }
  }

  /** A skill outside the table is found exactly when it occurs itself. */
  lemma FoundPlain(text: string, s: string)
    requires forall e :: e in Table ==> !Spells(s, e)
    ensures IsFound(text, s) <==> Search(text, s)
  {
    assert forall k :: 0 <= k < |Table| ==> !Spells(s, Table[k]);
  }

  /**
    The matching rule through the table: a requirement is found exactly when
    it occurs itself, or it spells a table entry whose abbreviation or
    expansion occurs.
  */
  lemma FoundSkillsByTable(text: string, required: seq<string>, s: string)
    ensures s in FoundSkills(text, required) <==>
      && s in required
      && (|| Search(text, s)
          || exists e :: e in Table && Spells(s, e) && (Search(text, e.short) || Search(text, e.full)))
  {
    if e :| e in Table && Spells(s, e) {
      FoundViaEntry(text, s, e);
      forall e' | e' in Table && Spells(s, e') ensures e' == e {
        SpellsAtMostOne(s, e, e');
      }
    } else {
      FoundPlain(text, s);
    }
  }

  /** Whether a skill is found depends only on its normalization key. */
  lemma FoundDependsOnlyOnKey(text: string, s: string, t: string)
    requires Key(s) == Key(t)
    ensures IsFound(text, s) == IsFound(text, t)
  {
    KeyIffEquivalent(s, t);
    if e :| e in Table && Spells(s, e) && Spells(t, e) {
      FoundViaEntry(text, s, e);
      FoundViaEntry(text, t, e);
    } else {
      assert UpperStr(s) == UpperStr(t);
      if e :| e in Table && Spells(s, e) {
        assert Spells(t, e);
      } else {
        FoundPlain(text, s);
        FoundPlain(text, t);
        CaseAgreement(s, t);
        SearchIgnoresCase(text, s, t);
      }
    }
  }

  /**
    Abbreviation and expansion stand for each other: requiring `ML` is
    satisfied by the same texts as requiring `Machine Learning`.
  */
  lemma FoundSymmetric(text: string, e: Abbreviation)
    requires e in Table
    ensures IsFound(text, e.short) <==> IsFound(text, e.full)
  {
    EntryShareKey(e);
    FoundDependsOnlyOnKey(text, e.short, e.full);
  }

  // ---------------------------------------------------------------------------
  // One representative per normalization key (`normalized_jd_map`)
  // ---------------------------------------------------------------------------

  /** One item of an insertion-ordered dictionary from keys to skills. */
  datatype Entry = Entry(key: string, skill: string)

  /** Some item of `table` has key `key`. */
  ghost predicate HasKey(table: seq<Entry>, key: string)
  {
    exists e :: e in table && e.key == key
  }

  /** A dictionary holds each key once. */
  ghost predicate KeysDistinct(table: seq<Entry>)
  {
    forall i, j :: 0 <= i < j < |table| ==> table[i].key != table[j].key
  }

  /** `table[key] = skill`: an existing key keeps its place and takes the new value; a new key goes last. */
  function Assign(table: seq<Entry>, key: string, skill: string): (r: seq<Entry>)
    requires KeysDistinct(table)
    ensures KeysDistinct(r)
    ensures Entry(key, skill) in r
    ensures forall e :: e in r ==> e == Entry(key, skill) || (e in table && e.key != key)
    ensures forall e :: e in table && e.key != key ==> e in r
    ensures |r| == if HasKey(table, key) then |table| else |table| + 1
  {
    if |table| == 0 then [Entry(key, skill)]
    else if table[0].key == key then
      assert forall e :: e in table[1..] ==> e.key != key by {
        forall e | e in table[1..] ensures e.key != key {
          var j :| 0 <= j < |table[1..]| && table[1..][j] == e;
          assert table[j + 1] == e;
        }
      }
      assert table == [table[0]] + table[1..];
      [Entry(key, skill)] + table[1..]
    else
      var rest := Assign(table[1..], key, skill);
      assert table == [table[0]] + table[1..];
      var r := [table[0]] + rest;
      assert forall j :: 0 <= j < |rest| ==> rest[j].key != table[0].key by {
        forall j | 0 <= j < |rest| ensures rest[j].key != table[0].key {
          assert rest[j] in rest;
        }
      }
      r
  }

  /** Each requirement paired with its normalization key, in list order. */
  function Keyed(required: seq<string>): (items: seq<Entry>)
    ensures |items| == |required|
    ensures forall p :: 0 <= p < |items| ==> items[p] == Entry(Key(required[p]), required[p])
  {
    seq(|required|, p requires 0 <= p < |required| => Entry(Key(required[p]), required[p]))
  }

  /**
    The dictionary the loop builds by assigning `table[key] = skill` for each
    keyed requirement in turn (`normalized_jd_map`).
  */
  function KeyTable(items: seq<Entry>): (table: seq<Entry>)
    ensures KeysDistinct(table)
    ensures forall e :: e in table ==> e in items
    ensures forall p :: 0 <= p < |items| ==> HasKey(table, items[p].key)
    ensures |table| <= |items|
  {
    if |items| == 0 then []
    else
      var n := |items| - 1;
      var table := Assign(KeyTable(items[..n]), items[n].key, items[n].skill);
      assert items == items[..n] + [items[n]];
      table
  }

  /** Item `p` is the last one with its key. */
  ghost predicate LastOfItsKey(items: seq<Entry>, p: int)
    requires 0 <= p < |items|
  {
    forall q :: p < q < |items| ==> items[q].key != items[p].key
  }

  /** The dictionary after one more item: that item, plus the earlier entries with other keys. */
  lemma KeyTableStep(items: seq<Entry>, e: Entry)
    requires |items| > 0
    ensures e in KeyTable(items) <==>
      e == items[|items| - 1] || (e in KeyTable(items[..|items| - 1]) && e.key != items[|items| - 1].key)
  {
    var n := |items| - 1;
    assert KeyTable(items) == Assign(KeyTable(items[..n]), items[n].key, items[n].skill);
  }

  /** An earlier item is last of its key in the longer list exactly when the new item has another key. */
  lemma LastOfItsKeyStep(items: seq<Entry>, p: int)
    requires 0 <= p < |items| - 1
    ensures LastOfItsKey(items, p) <==>
      LastOfItsKey(items[..|items| - 1], p) && items[p].key != items[|items| - 1].key
  {
    var n := |items| - 1;
    assert forall q :: p < q < n ==> items[..n][q] == items[q];
  }

  /** Item `e` is, at some position, the last item with its key. */
  ghost predicate IsLastOfItsKey(items: seq<Entry>, e: Entry)
  {
    exists p :: 0 <= p < |items| && items[p] == e && LastOfItsKey(items, p)
  }

  /** The dictionary's items: for each key, the last item that has it. */
  lemma {:induction false} KeyTableKeepsLast(items: seq<Entry>, e: Entry)
    ensures e in KeyTable(items) <==> IsLastOfItsKey(items, e)
  {
    if |items| > 0 {
      var n := |items| - 1;
      var init := items[..n];
      KeyTableStep(items, e);
      KeyTableKeepsLast(init, e);
      if e == items[n] {
        assert LastOfItsKey(items, n);
      } else {
        if e in KeyTable(items) {
          var p :| 0 <= p < |init| && init[p] == e && LastOfItsKey(init, p);
          LastOfItsKeyStep(items, p);
          assert items[p] == e;
        }
        if IsLastOfItsKey(items, e) {
          var p :| 0 <= p < |items| && items[p] == e && LastOfItsKey(items, p);
          LastOfItsKeyStep(items, p);
          assert init[p] == e;
        }
      }
    }
  }

  /** No two items share a key. */
  ghost predicate KeysAllDifferent(items: seq<Entry>)
  {
    forall i, j :: 0 <= i < j < |items| ==> items[i].key != items[j].key
  }

  lemma KeysAllDifferentPrefix(items: seq<Entry>)
    requires |items| > 0
    requires KeysAllDifferent(items)
    ensures KeysAllDifferent(items[..|items| - 1])
  {
  }

  /** Distinct keys make the dictionary as long as the list. */
  lemma {:induction false} KeyTableFullWhenDistinct(items: seq<Entry>)
    requires KeysAllDifferent(items)
    ensures |KeyTable(items)| == |items|
  {
    if |items| > 0 {
      var n := |items| - 1;
      var init := items[..n];
      KeysAllDifferentPrefix(items);
      KeyTableFullWhenDistinct(init);
      var before := KeyTable(init);
      assert KeyTable(items) == Assign(before, items[n].key, items[n].skill);
      forall e | e in before ensures e.key != items[n].key {
        assert e in init;
        var i :| 0 <= i < |init| && init[i] == e;
        assert items[i] == e;
      }
    }
  }

  /** A full dictionary was full before its last item, and that item's key was new. */
  lemma KeyTableFullPrefix(items: seq<Entry>)
    requires |items| > 0
    requires |KeyTable(items)| == |items|
    ensures |KeyTable(items[..|items| - 1])| == |items| - 1
    ensures forall i | 0 <= i < |items| - 1 :: items[i].key != items[|items| - 1].key
  {
    var n := |items| - 1;
    var init := items[..n];
    var before := KeyTable(init);
    assert KeyTable(items) == Assign(before, items[n].key, items[n].skill);
    forall i | 0 <= i < n ensures items[i].key != items[n].key {
      assert items[i] == init[i];
      assert HasKey(before, init[i].key);
    }
  }

  /** Keys stay all different when the new last item's key is new. */
  lemma KeysAllDifferentSnoc(items: seq<Entry>)
    requires |items| > 0
    requires KeysAllDifferent(items[..|items| - 1])
    requires forall i | 0 <= i < |items| - 1 :: items[i].key != items[|items| - 1].key
    ensures KeysAllDifferent(items)
  {
    var n := |items| - 1;
    forall i, j | 0 <= i < j < |items| ensures items[i].key != items[j].key {
      if j < n {
        assert items[i] == items[..n][i] && items[j] == items[..n][j];
      }
    }
  }

  /** A dictionary as long as the list means no two items shared a key. */
  lemma {:induction false} KeyTableFullOnlyWhenDistinct(items: seq<Entry>)
    requires |KeyTable(items)| == |items|
    ensures KeysAllDifferent(items)
  {
    if |items| > 0 {
      KeyTableFullPrefix(items);
      KeyTableFullOnlyWhenDistinct(items[..|items| - 1]);
      KeysAllDifferentSnoc(items);
    }
  }

  /** The dictionary has one entry per item exactly when no two items share a key. */
  lemma KeyTableFull(items: seq<Entry>)
    ensures |KeyTable(items)| == |items| <==> KeysAllDifferent(items)
  {
    if KeysAllDifferent(items) {
      KeyTableFullWhenDistinct(items);
    }
    if |KeyTable(items)| == |items| {
      KeyTableFullOnlyWhenDistinct(items);
    }
  }

  // ---------------------------------------------------------------------------
  // Matched and missing lists, counts and coverage
  // ---------------------------------------------------------------------------

  /** `normalized_found_keys`: the keys of the skills found in the resume. */
  function FoundKeys(found: set<string>): set<string>
  {
    set s | s in found :: Key(s)
  }

  /** A required skill's key was found exactly when the skill itself is found. */
  lemma FoundKeyIff(text: string, required: seq<string>, x: string)
    requires x in required
    ensures Key(x) in FoundKeys(FoundSkills(text, required)) <==> IsFound(text, x)
  {
    var found := FoundSkills(text, required);
    if Key(x) in FoundKeys(found) {
      var s :| s in found && Key(s) == Key(x);
      FoundDependsOnlyOnKey(text, s, x);
    }
    if IsFound(text, x) {
      assert x in found;
    }
  }

  /** The dictionary's entries, in order, split by whether their key was found. */
  datatype Split = Split(matched: seq<Entry>, missing: seq<Entry>)

  /** The loop over `normalized_jd_map.items()` that appends to `matched_skills` or `missing_skills`. */
  function SplitByKeys(table: seq<Entry>, foundKeys: set<string>): (r: Split)
    ensures forall e :: e in r.matched <==> e in table && e.key in foundKeys
    ensures forall e :: e in r.missing <==> e in table && e.key !in foundKeys
    ensures |r.matched| + |r.missing| == |table|
  {
    if |table| == 0 then Split([], [])
    else
      var rest := SplitByKeys(table[1..], foundKeys);
      assert table == [table[0]] + table[1..];
      if table[0].key in foundKeys then Split([table[0]] + rest.matched, rest.missing)
      else Split(rest.matched, [table[0]] + rest.missing)
  }

  /** The first entry's key is not repeated after it. */
  lemma HeadKeyIsNew(table: seq<Entry>)
    requires |table| > 0 && KeysDistinct(table)
    ensures KeysDistinct(table[1..])
    ensures forall e :: e in table[1..] ==> e.key != table[0].key
  {
    forall e | e in table[1..] ensures e.key != table[0].key {
      var j :| 0 <= j < |table[1..]| && table[1..][j] == e;
      assert table[j + 1] == e;
    }
  }

  /** Putting an entry with a new key in front keeps the keys distinct. */
  lemma PrependKeepsDistinct(e: Entry, table: seq<Entry>)
    requires KeysDistinct(table)
    requires forall x :: x in table ==> x.key != e.key
    ensures KeysDistinct([e] + table)
  {
    var r := [e] + table;
    forall i, j | 0 <= i < j < |r| ensures r[i].key != r[j].key {
      assert r[j] == table[j - 1];
      if i > 0 {
        assert r[i] == table[i - 1];
      }
    }
  }

  /** Both parts of the split of a dictionary hold each key once. */
  lemma {:induction false} SplitKeepsKeysDistinct(table: seq<Entry>, foundKeys: set<string>)
    requires KeysDistinct(table)
    ensures KeysDistinct(SplitByKeys(table, foundKeys).matched)
    ensures KeysDistinct(SplitByKeys(table, foundKeys).missing)
  {
    if |table| > 0 {
      HeadKeyIsNew(table);
      SplitKeepsKeysDistinct(table[1..], foundKeys);
      var rest := SplitByKeys(table[1..], foundKeys);
      if table[0].key in foundKeys {
        PrependKeepsDistinct(table[0], rest.matched);
      } else {
        PrependKeepsDistinct(table[0], rest.missing);
      }
    }
  }

  /** The skills stored under the entries, in order. */
  function Skills(entries: seq<Entry>): (skills: seq<string>)
    ensures |skills| == |entries|
    ensures forall i :: 0 <= i < |entries| ==> skills[i] == entries[i].skill
  {
    seq(|entries|, i requires 0 <= i < |entries| => entries[i].skill)
  }

  /** Every entry is stored under its skill's normalization key. */
  ghost predicate KeyedBySkill(entries: seq<Entry>)
  {
    forall e :: e in entries ==> e.key == Key(e.skill)
  }

  /** In a keyed list, a skill is present exactly when its entry is. */
  lemma SkillsOfKeyed(entries: seq<Entry>, x: string)
    requires KeyedBySkill(entries)
    ensures x in Skills(entries) <==> Entry(Key(x), x) in entries
  {
    var skills := Skills(entries);
    if x in skills {
      var i :| 0 <= i < |skills| && skills[i] == x;
      assert entries[i] in entries;
    }
    if Entry(Key(x), x) in entries {
      var i :| 0 <= i < |entries| && entries[i] == Entry(Key(x), x);
      assert skills[i] == x;
    }
  }

  /** Keys that differ and follow the skills make the skills differ too. */
  lemma SkillsDistinct(entries: seq<Entry>)
    requires KeyedBySkill(entries) && KeysDistinct(entries)
    ensures Distinct(Skills(entries))
  {
    var skills := Skills(entries);
    forall i, j | 0 <= i < j < |skills| ensures skills[i] != skills[j] {
      assert entries[i] in entries && entries[j] in entries;
    }
  }

  /** The requirements' dictionary: keyed by skill, one entry per key. */
  lemma RequirementTableKeyed(required: seq<string>)
    ensures KeyedBySkill(KeyTable(Keyed(required)))
  {
    var items := Keyed(required);
    forall e | e in KeyTable(items) ensures e.key == Key(e.skill) {
      assert e in items;
      var p :| 0 <= p < |items| && items[p] == e;
    }
  }

  /** Sorting the stored skills of a keyed, key-distinct list keeps every one of them. */
  lemma SortedSkillsLength(entries: seq<Entry>)
    requires KeyedBySkill(entries) && KeysDistinct(entries)
    ensures |SortedSet(Skills(entries))| == |entries|
  {
    SkillsDistinct(entries);
    SortedSetLength(Skills(entries));
  }

  /** Deduplicating the matched and missing lists removes nothing. */
  lemma MatchSplitLengths(required: seq<string>, foundKeys: set<string>)
    ensures var split := SplitByKeys(KeyTable(Keyed(required)), foundKeys);
      && |SortedSet(Skills(split.matched))| == |split.matched|
      && |SortedSet(Skills(split.missing))| == |split.missing|
  {
    var table := KeyTable(Keyed(required));
    var split := SplitByKeys(table, foundKeys);
    RequirementTableKeyed(required);
    SplitKeepsKeysDistinct(table, foundKeys);
    SortedSkillsLength(split.matched);
    SortedSkillsLength(split.missing);
  }

  /** `analysis_report`. */
  datatype SkillReport = SkillReport(
    matched: seq<string>,
    missing: seq<string>,
    requirementsFound: nat,
    totalRequirements: nat)

  /** The report together with `match_percentage`. */
  datatype SkillAnalysis = SkillAnalysis(report: SkillReport, coverage: real)

  /**
    `match_percentage`: the share of the requirements that were matched, or
    0.0 when there are no requirements.
  */
  function Coverage(matched: nat, total: nat): (r: real)
    ensures total == 0 ==> r == 0.0
    ensures total > 0 ==> r * (total as real) == matched as real
    ensures matched <= total ==> 0.0 <= r <= 1.0
  {
    if total == 0 then 0.0 else (matched as real) / (total as real)
  }

  /** The lists, counts and coverage built once the requirements are known. */
  function MatchSkills(resumeText: string, required: seq<string>): (r: SkillAnalysis)
    ensures StrictlySorted(r.report.matched) && StrictlySorted(r.report.missing)
    ensures |r.report.matched| + |r.report.missing| <= |required|
    ensures r.report.requirementsFound == |r.report.matched| && r.report.totalRequirements == |required|
    ensures r.coverage == Coverage(r.report.requirementsFound, r.report.totalRequirements)
    ensures 0.0 <= r.coverage <= 1.0
  {
    var table := KeyTable(Keyed(required));
    var split := SplitByKeys(table, FoundKeys(FoundSkills(resumeText, required)));
    var matched := SortedSet(Skills(split.matched));
    var missing := SortedSet(Skills(split.missing));
    MatchSplitLengths(required, FoundKeys(FoundSkills(resumeText, required)));
    SkillAnalysis(
      SkillReport(matched, missing, |matched|, |required|),
      Coverage(|matched|, |required|))
  }

  /** `x` is the last requirement with its normalization key: the skill `normalized_jd_map` keeps for that key. */
  ghost predicate Representative(required: seq<string>, x: string)
  {
    IsLastOfItsKey(Keyed(required), Entry(Key(x), x))
  }

  lemma RepresentativeIsRequired(required: seq<string>, x: string)
    requires Representative(required, x)
    ensures x in required
  {
    var items := Keyed(required);
    var p :| 0 <= p < |items| && items[p] == Entry(Key(x), x) && LastOfItsKey(items, p);
    assert required[p] == x;
  }

  /** A dictionary entry lands in the matched part exactly when its skill is found. */
  lemma SplitEntryIff(resumeText: string, required: seq<string>, x: string)
    ensures var table := KeyTable(Keyed(required));
      var split := SplitByKeys(table, FoundKeys(FoundSkills(resumeText, required)));
      && KeyedBySkill(split.matched) && KeyedBySkill(split.missing)
      && (Entry(Key(x), x) in split.matched <==> Representative(required, x) && IsFound(resumeText, x))
      && (Entry(Key(x), x) in split.missing <==> Representative(required, x) && !IsFound(resumeText, x))
  {
    RequirementTableKeyed(required);
    KeyTableKeepsLast(Keyed(required), Entry(Key(x), x));
    if Representative(required, x) {
      RepresentativeIsRequired(required, x);
      FoundKeyIff(resumeText, required, x);
    }
  }

  /**
    `Keywords Matched`: exactly the kept requirements that the resume
    contains, directly or through their abbreviation or expansion.
  */
  lemma MatchedIffFound(resumeText: string, required: seq<string>, x: string)
    ensures x in MatchSkills(resumeText, required).report.matched <==>
      Representative(required, x) && IsFound(resumeText, x)
  {
    var table := KeyTable(Keyed(required));
    var split := SplitByKeys(table, FoundKeys(FoundSkills(resumeText, required)));
    SplitEntryIff(resumeText, required, x);
    SkillsOfKeyed(split.matched, x);
  }

  /** `Missing Skills`: exactly the kept requirements that the resume lacks. */
  lemma MissingIffNotFound(resumeText: string, required: seq<string>, x: string)
    ensures x in MatchSkills(resumeText, required).report.missing <==>
      Representative(required, x) && !IsFound(resumeText, x)
  {
    var table := KeyTable(Keyed(required));
    var split := SplitByKeys(table, FoundKeys(FoundSkills(resumeText, required)));
    SplitEntryIff(resumeText, required, x);
    SkillsOfKeyed(split.missing, x);
  }

  /**
    The two lists account for every requirement exactly when no two
    requirements share a normalization key; otherwise they are shorter.
  */
  lemma MatchCounts(resumeText: string, required: seq<string>)
    ensures var report := MatchSkills(resumeText, required).report;
      |report.matched| + |report.missing| == |required| <==> KeysAllDifferent(Keyed(required))
  {
    MatchSplitLengths(required, FoundKeys(FoundSkills(resumeText, required)));
    KeyTableFull(Keyed(required));
  }

  /** With all keys different, every requirement is kept. */
  lemma {:induction false} AllRepresentedWhenDistinct(required: seq<string>, x: string)
    requires KeysAllDifferent(Keyed(required))
    ensures Representative(required, x) <==> x in required
  {
    if x in required {
      var items := Keyed(required);
      var p :| 0 <= p < |required| && required[p] == x;
      assert items[p] == Entry(Key(x), x);
      assert LastOfItsKey(items, p);
    } else {
      if Representative(required, x) {
        RepresentativeIsRequired(required, x);
      }
    }
  }

  /** No requirements: nothing is matched or missing, and the coverage falls back to 0.0. */
  lemma NoRequirementsReport(text: string)
    ensures var r := MatchSkills(text, []);
      && r.report.matched == [] && r.report.missing == []
      && r.report.totalRequirements == 0 && r.coverage == 0.0
  {
    var r := MatchSkills(text, []);
    forall x ensures x !in r.report.matched && x !in r.report.missing {
      MatchedIffFound(text, [], x);
      MissingIffNotFound(text, [], x);
      if Representative([], x) {
        RepresentativeIsRequired([], x);
      }
    }
  }
}

=== FILE: normalization.dfy ===
/**
  The abbreviation table `SKILL_NORMALIZATION_MAP` with its forward and
  reverse lookups, and the normalization key that groups a skill with its
  abbreviation or expansion.
*/
module Normalization {
  import opened Ascii
  import opened Options

  datatype Abbreviation = Abbreviation(short: string, full: string)

  /** The table in the dictionary's insertion order. */
  const Table: seq<Abbreviation> := [
    Abbreviation("ML", "Machine Learning"),
    Abbreviation("NLP", "Natural Language Processing"),
    Abbreviation("DL", "Deep Learning"),
    Abbreviation("CV", "Computer Vision"),
    Abbreviation("DSA", "Data Structures and Algorithms")
  ]

  /** `table.get(key)` on a dictionary given by its entries, read from position `i` on. */
  function LookupFrom(entries: seq<Abbreviation>, key: string, i: nat): (r: Option<string>)
    requires i <= |entries|
    ensures r.Some? ==> exists k :: i <= k < |entries| && entries[k] == Abbreviation(key, r.value)
    ensures r.None? ==> forall k :: i <= k < |entries| ==> entries[k].short != key
    decreases |entries| - i
  {
    if i == |entries| then None
    else if entries[i].short == key then Some(entries[i].full)
    else LookupFrom(entries, key, i + 1)
  }

  /** `SKILL_NORMALIZATION_MAP.get(key)`: the expansion registered for an abbreviation. */
  function ExpansionOf(key: string): Option<string>
  {
    LookupFrom(Table, key, 0)
  }

  /**
    `next((abbr for abbr, full in entries if full.upper() == skill.upper()), None)`,
    scanning from position `i`: the first abbreviation whose expansion spells `skill`.
  */
  function FirstAbbreviationFrom(entries: seq<Abbreviation>, skill: string, i: nat): (r: Option<string>)
    requires i <= |entries|
    ensures r.Some? ==> exists k :: i <= k < |entries| && entries[k].short == r.value
                                    && UpperStr(entries[k].full) == UpperStr(skill)
                                    && forall j :: i <= j < k ==> UpperStr(entries[j].full) != UpperStr(skill)
    ensures r.None? ==> forall k :: i <= k < |entries| ==> UpperStr(entries[k].full) != UpperStr(skill)
    decreases |entries| - i
  {
    if i == |entries| then None
    else if UpperStr(entries[i].full) == UpperStr(skill) then Some(entries[i].short)
    else FirstAbbreviationFrom(entries, skill, i + 1)
  }

  /** The abbreviation whose expansion is `skill`, ignoring case. */
  function AbbreviationOf(skill: string): Option<string>
  {
    FirstAbbreviationFrom(Table, skill, 0)
  }

  /**
    The normalization key: the upper-cased abbreviation when `skill` is an
    abbreviation or the expansion of one, otherwise `skill.upper()`.
  */
  function Key(skill: string): string
  {
    var upper := UpperStr(skill);
    var key := match AbbreviationOf(skill)
      case Some(short) => UpperStr(short)
      case None => upper;
    if ExpansionOf(upper).Some? then upper else key
  }

  /** `skill` spells entry `e`: it is `e`'s abbreviation or `e`'s expansion, ignoring case. */
  predicate Spells(skill: string, e: Abbreviation)
  {
    UpperStr(skill) == e.short || UpperStr(skill) == UpperStr(e.full)
  }

  /** Two skills name the same requirement: equal ignoring case, or both spell one table entry. */
  ghost predicate Equivalent(s: string, t: string)
  {
    UpperStr(s) == UpperStr(t) || exists e :: e in Table && Spells(s, e) && Spells(t, e)
  }

  /** A string of capital letters is its own upper-case form. */
  lemma UpperOfCapitals(s: string)
    requires forall k :: 0 <= k < |s| ==> IsUpper(s[k])
    ensures UpperStr(s) == s
  {
  }

  /** Facts about the table that the lookups rely on. */
  lemma TableFacts()
    ensures forall e :: e in Table ==> UpperStr(e.short) == e.short && 2 <= |e.short| <= 3
    ensures forall e :: e in Table ==> |e.full| > 3
    ensures forall i, j :: 0 <= i < j < |Table| ==> Table[i].short != Table[j].short
    ensures forall i, j :: 0 <= i < j < |Table| ==> |Table[i].full| != |Table[j].full|
  {
    forall e | e in Table
      ensures UpperStr(e.short) == e.short
    {
      UpperOfCapitals(e.short);
    }
  }

  /** Each skill spells at most one table entry. */
  lemma SpellsAtMostOne(s: string, e1: Abbreviation, e2: Abbreviation)
    requires e1 in Table && e2 in Table
    requires Spells(s, e1) && Spells(s, e2)
    ensures e1 == e2
  {
    TableFacts();
    var i :| 0 <= i < |Table| && Table[i] == e1;
    var j :| 0 <= j < |Table| && Table[j] == e2;
  }

  lemma KeyOfSpelling(s: string, e: Abbreviation)
    requires e in Table && Spells(s, e)
    ensures Key(s) == e.short
  {
    TableFacts();
    var upper := UpperStr(s);
    if upper == e.short {
      var i :| 0 <= i < |Table| && Table[i] == e;
      assert ExpansionOf(upper).Some?;
    } else {
      assert upper == UpperStr(e.full);
      assert ExpansionOf(upper).None? by {
        forall k | 0 <= k < |Table| ensures Table[k].short != upper {
          assert |Table[k].short| <= 3 < |e.full| == |upper|;
        }
      }
      var r := AbbreviationOf(s);
      var i :| 0 <= i < |Table| && Table[i] == e;
      assert r.Some?;
      var k :| 0 <= k < |Table| && Table[k].short == r.value && UpperStr(Table[k].full) == upper;
      SpellsAtMostOne(s, e, Table[k]);
    }
  }

  lemma KeyOfPlain(s: string)
    requires forall e :: e in Table ==> !Spells(s, e)
    ensures Key(s) == UpperStr(s)
  {
    assert forall k :: 0 <= k < |Table| ==> !Spells(s, Table[k]);
  }

  /** Normalization keys agree exactly on equivalent skills. */
  lemma KeyIffEquivalent(s: string, t: string)
    ensures Key(s) == Key(t) <==> Equivalent(s, t)
  {
    TableFacts();
    if es :| es in Table && Spells(s, es) {
      KeyOfSpelling(s, es);
      if et :| et in Table && Spells(t, et) {
        KeyOfSpelling(t, et);
        if Equivalent(s, t) && es != et {
          if UpperStr(s) == UpperStr(t) {
            assert Spells(t, es);
            SpellsAtMostOne(t, es, et);
          } else {
            var e :| e in Table && Spells(s, e) && Spells(t, e);
            SpellsAtMostOne(s, es, e);
            SpellsAtMostOne(t, et, e);
          }
        }
        if es == et {
          assert Equivalent(s, t);
        } else {
          var i :| 0 <= i < |Table| && Table[i] == es;
          var j :| 0 <= j < |Table| && Table[j] == et;
          assert Key(s) != Key(t);
        }
      } else {
        KeyOfPlain(t);
        assert !Spells(t, es);
        assert UpperStr(s) != UpperStr(t);
      }
    } else {
      KeyOfPlain(s);
      if et :| et in Table && Spells(t, et) {
        KeyOfSpelling(t, et);
        assert !Spells(s, et);
        assert UpperStr(s) != UpperStr(t);
      } else {
        KeyOfPlain(t);
      }
    }
  }

  /** An abbreviation and its expansion share their key, which is the abbreviation. */
  lemma EntryShareKey(e: Abbreviation)
    requires e in Table
    ensures Key(e.short) == e.short && Key(e.full) == e.short
  {
    TableFacts();
    KeyOfSpelling(e.short, e);
    KeyOfSpelling(e.full, e);
  }
}

=== FILE: options.dfy ===
/** The value-or-`None` that `dict.get` and `next(..., None)` return. */
module Options {

  datatype Option<+T> = None | Some(value: T)
}

=== FILE: scenarios.dfy ===
/**
  Concrete inputs worked through the model.
*/
module Scenarios {
  import opened WordSearch
  import opened Extraction
  import opened Matching
  import opened Analysis
  import Heuristic

  /**
    The pattern `\bC\+\+\b` needs a word character right after `C++`, so the
    vocabulary term `C++` is not seen in "C++ and Java".
  */
  lemma CppNotSeenBeforeSpace()
    ensures !Search("C++ and Java", "C++")
  {
    var t := "C++ and Java";
    forall i | 0 <= i <= |t| ensures !WholeWordAt(t, "C++", i) {
      if WholeWordAt(t, "C++", i) {
        TrailingNonWordNeedsWordAfter(t, "C++", i);
      }
    }
  }

  /** Followed by a digit, the vocabulary term `C++` is seen, and so is its lower-case spelling. */
  lemma CppSeenBeforeDigit()
    ensures Search("C++17 and Java", "C++")
    ensures Search("C++17 and Java", "c++")
  {
    assert WholeWordAt("C++17 and Java", "C++", 0);
    assert WholeWordAt("C++17 and Java", "c++", 0);
  }

  /** The capitalization heuristic finds nothing in empty text. */
  lemma NoTokensInEmptyText(text: string)
    requires |text| == 0
    ensures Heuristic.Tokens(text) == []
  {
    assert Heuristic.Scan(text) == [];
  }

  /** No vocabulary term occurs in empty text. */
  lemma NoTermInEmptyText(text: string, term: string)
    requires |text| == 0 && term in Vocabulary
    ensures !Search(text, term)
  {
    VocabularyFacts();
    var j :| 0 <= j < |Vocabulary| && Vocabulary[j] == term;
    NothingInEmptyText(term);
  }

  /** No string is a candidate of an empty job description. */
  lemma NoCandidateInEmptyText(jdText: string, s: string)
    requires |jdText| == 0
    ensures s !in CandidateSet(jdText)
  {
    NoTokensInEmptyText(jdText);
    CandidateSetMembers(jdText, s);
    if s in Vocabulary {
      NoTermInEmptyText(jdText, s);
    }
  }

  /** An empty job description yields no requirements. */
  lemma EmptyJobDescription(jdText: string)
    requires |jdText| == 0
    ensures CandidateSet(jdText) == {}
  {
    forall s ensures s !in CandidateSet(jdText) {
      NoCandidateInEmptyText(jdText, s);
    }
  }

  /**
    A job description without skills (its candidate set, and so its
    enumeration, is empty) yields no requirements: both lists are empty,
    the total is 0 and the coverage falls back to 0.0.
  */
  lemma SkillFreeJobDescriptionReport(resumeText: string, jdText: string, iteration: seq<string>)
    requires (set s | s in iteration) == CandidateSet(jdText) && |iteration| == 0
    ensures var r := ExtractAndMatch(resumeText, jdText, iteration);
      && r.report.matched == [] && r.report.missing == []
      && r.report.totalRequirements == 0 && r.coverage == 0.0
  {
    assert KeepFirstOfEachCase(iteration) == [];
    assert ExtractCandidateSkills(jdText, iteration) == [];
    NoRequirementsReport(resumeText);
  }

  /** The empty job description is one of them. */
  lemma EmptyJobDescriptionReport(resumeText: string, jdText: string, iteration: seq<string>)
    requires |jdText| == 0 && |iteration| == 0
    ensures (set s | s in iteration) == CandidateSet(jdText) &&
      var r := ExtractAndMatch(resumeText, jdText, iteration);
      && r.report.matched == [] && r.report.missing == []
      && r.report.totalRequirements == 0 && r.coverage == 0.0
  {
    EmptyJobDescription(jdText);
    assert (set s | s in iteration) == {};
    SkillFreeJobDescriptionReport(resumeText, jdText, iteration);
  }
}

/**
  A concrete input for the matching step on its own.
*/
module MatchingScenarios {
  import opened WordSearch
  import opened StringOrder
  import opened Normalization
  import opened Matching

  /** A lone requirement is its own representative. */
  lemma LoneRequirementKept(x: string)
    ensures Representative([x], x)
  {
    var items := Keyed([x]);
    assert items[0] == Entry(Key(x), x);
    assert LastOfItsKey(items, 0);
  }

  /** A lone requirement the text contains is the whole matched list. */
  lemma LoneRequirementMatched(text: string, x: string)
    requires IsFound(text, x)
    ensures MatchSkills(text, [x]).report.matched == [x]
  {
    LoneRequirementKept(x);
    var matched := MatchSkills(text, [x]).report.matched;
    forall y ensures y in matched <==> y in [x] {
      MatchedIffFound(text, [x], y);
      if Representative([x], y) {
        RepresentativeIsRequired([x], y);
      }
    }
    StrictlySortedUnique(matched, [x]);
  }

  /** The resume spells out `Deep Learning`, so the abbreviation `DL` is found. */
  lemma ExpansionFoundInResume()
    ensures IsFound("deep learning", "DL")
  {
    assert WholeWordAt("deep learning", "Deep Learning", 0);
    FoundViaEntry("deep learning", "DL", Table[2]);
  }

  /** A required abbreviation is matched by its expansion in the resume. */
  lemma AbbreviationMatchedByExpansion()
    ensures MatchSkills("deep learning", ["DL"]).report.matched == ["DL"]
  {
    ExpansionFoundInResume();
    LoneRequirementMatched("deep learning", "DL");
  }
}

=== FILE: string_order.dfy ===
/**
  Python's ordering of `str` values (lexicographic by code point) and
  `sorted(list(set(xs)))` on lists of strings.
*/
module StringOrder {

  /** `a < b` on Python strings. */
  predicate Less(a: string, b: string)
    decreases |a|
  {
    |b| > 0 && (|a| == 0 || a[0] < b[0] || (a[0] == b[0] && Less(a[1..], b[1..])))
  }

  lemma {:induction false} LessIrreflexive(a: string)
    ensures !Less(a, a)
    decreases |a|
  {
    if |a| > 0 {
      LessIrreflexive(a[1..]);
    }
  }

  lemma {:induction false} LessTransitive(a: string, b: string, c: string)
    requires Less(a, b) && Less(b, c)
    ensures Less(a, c)
    decreases |a|
  {
    if |a| > 0 && a[0] == b[0] && b[0] == c[0] {
      LessTransitive(a[1..], b[1..], c[1..]);
    }
  }

  /** Any two different strings are ordered one way or the other. */
  lemma {:induction false} LessTotal(a: string, b: string)
    requires a != b
    ensures Less(a, b) || Less(b, a)
    decreases |a|
  {
    if |a| > 0 && |b| > 0 && a[0] == b[0] {
      assert a == [a[0]] + a[1..] && b == [b[0]] + b[1..];
      LessTotal(a[1..], b[1..]);
    }
  }

  lemma {:induction false} LessAsymmetric(a: string, b: string)
    requires Less(a, b)
    ensures !Less(b, a)
    decreases |a|
  {
    if |a| > 0 && a[0] == b[0] {
      LessAsymmetric(a[1..], b[1..]);
    }
  }

  /** Ascending without repetition, which is what `sorted` yields on the elements of a set. */
  ghost predicate StrictlySorted(s: seq<string>)
  {
    forall i, j :: 0 <= i < j < |s| ==> Less(s[i], s[j])
  }

  lemma StrictlySortedDistinct(s: seq<string>, i: int, j: int)
    requires StrictlySorted(s)
    requires 0 <= i < |s| && 0 <= j < |s| && i != j
    ensures s[i] != s[j]
  {
    if i < j {
      LessIrreflexive(s[i]);
    } else {
      LessIrreflexive(s[j]);
    }
  }

  /** Putting a smaller string in front keeps a list ascending. */
  lemma PrependSorted(x: string, s: seq<string>)
    requires StrictlySorted(s)
    requires forall y :: y in s ==> Less(x, y)
    ensures StrictlySorted([x] + s)
  {
    forall i, j | 0 <= i < j < |[x] + s|
      ensures Less(([x] + s)[i], ([x] + s)[j])
    {
      if i > 0 {
        assert ([x] + s)[i] == s[i - 1];
      }
      assert ([x] + s)[j] == s[j - 1];
    }
  }

  /** Adds `x` to an ascending list unless it is already there. */
  function Insert(x: string, s: seq<string>): (r: seq<string>)
    requires StrictlySorted(s)
    ensures StrictlySorted(r)
    ensures forall y :: y in r <==> y == x || y in s
    ensures x in s ==> r == s
    ensures x !in s ==> |r| == |s| + 1
  {
    if |s| == 0 then [x]
    else if x == s[0] then s
    else if Less(x, s[0]) then
      assert forall y :: y in s ==> Less(x, y) by {
        forall y | y in s ensures Less(x, y) {
          var j :| 0 <= j < |s| && s[j] == y;
          if j > 0 {
            LessTransitive(x, s[0], s[j]);
          }
        }
      }
      LessIrreflexive(x);
      PrependSorted(x, s);
      [x] + s
    else
      LessTotal(x, s[0]);
      var rest := Insert(x, s[1..]);
      assert forall y :: y in s[1..] ==> Less(s[0], y) by {
        forall y | y in s[1..] ensures Less(s[0], y) {
          var j :| 0 <= j < |s[1..]| && s[1..][j] == y;
          assert s[j + 1] == y;
        }
      }
      PrependSorted(s[0], rest);
      assert s == [s[0]] + s[1..];
      [s[0]] + rest
  }

  /** `sorted(list(set(s)))`: the elements of `s`, ascending, each once. */
  function SortedSet(s: seq<string>): (r: seq<string>)
    ensures StrictlySorted(r)
    ensures forall y :: y in r <==> y in s
  {
    if |s| == 0 then []
    else Insert(s[|s| - 1], SortedSet(s[..|s| - 1]))
  }

  /** No element of `s` occurs twice. */
  ghost predicate Distinct(s: seq<string>)
  {
    forall i, j :: 0 <= i < j < |s| ==> s[i] != s[j]
  }

  /** Sorting a list without repetitions neither drops nor adds an entry. */
  lemma {:induction false} SortedSetLength(s: seq<string>)
    requires Distinct(s)
    ensures |SortedSet(s)| == |s|
  {
    if |s| > 0 {
      var init := s[..|s| - 1];
      SortedSetLength(init);
      assert s[|s| - 1] !in init;
    }
  }

  /** There is only one strictly ascending listing of a set of strings. */
  lemma {:induction false} StrictlySortedUnique(a: seq<string>, b: seq<string>)
    requires StrictlySorted(a) && StrictlySorted(b)
    requires forall y :: y in a <==> y in b
    ensures a == b
    decreases |a|
  {
    assert |a| > 0 ==> a[0] in b;
    assert |b| > 0 ==> b[0] in a;
    if |a| > 0 && |b| > 0 {
      assert a[0] in b && b[0] in a;
      if a[0] != b[0] {
        var i :| 0 <= i < |a| && a[i] == b[0];
        var j :| 0 <= j < |b| && b[j] == a[0];
        assert Less(a[0], b[0]);
        assert Less(b[0], a[0]);
        LessAsymmetric(a[0], b[0]);
      }
      forall y
        ensures y in a[1..] <==> y in b[1..]
      {
        if y in a[1..] {
          var i :| 0 <= i < |a[1..]| && a[1..][i] == y;
          StrictlySortedDistinct(a, 0, i + 1);
          assert a[i + 1] == y;
          assert y in a;
          var k :| 0 <= k < |b| && b[k] == y;
          assert k != 0;
          assert b[1..][k - 1] == y;
        }
        if y in b[1..] {
          var j :| 0 <= j < |b[1..]| && b[1..][j] == y;
          StrictlySortedDistinct(b, 0, j + 1);
          assert b[j + 1] == y;
          assert y in b;
          var k :| 0 <= k < |a| && a[k] == y;
          assert k != 0;
          assert a[1..][k - 1] == y;
        }
      }
      StrictlySortedUnique(a[1..], b[1..]);
      assert a == [a[0]] + a[1..] && b == [b[0]] + b[1..];
    }
  }
}

=== FILE: word_search.dfy ===
/**
  Whole-word, case-insensitive search: the meaning of
  `re.search(r'\b' + re.escape(term) + r'\b', text, re.IGNORECASE)`
  on ASCII text.
*/
module WordSearch {
  import opened Ascii

  /** `\w` at position `p`; a position outside the text is not a word character. */
  predicate WordAt(text: string, p: int)
  {
    0 <= p < |text| && IsWordChar(text[p])
  }

  /** `\b` at position `p`: word-ness differs on the two sides of `p`. */
  predicate IsBoundary(text: string, p: int)
  {
    WordAt(text, p - 1) != WordAt(text, p)
  }

  /** The escaped term matches `text[i..i + |term|]` ignoring case. */
  predicate CaseEqualAt(text: string, term: string, i: int)
    requires 0 <= i && i + |term| <= |text|
  {
    forall k :: 0 <= k < |term| ==> ToLower(text[i + k]) == ToLower(term[k])
  }

  /** The whole pattern `\b term \b` matches starting at position `i`. */
  predicate WholeWordAt(text: string, term: string, i: int)
  {
    && 0 <= i
    && i + |term| <= |text|
    && IsBoundary(text, i)
    && CaseEqualAt(text, term, i)
    && IsBoundary(text, i + |term|)
  }

  /** Declarative meaning of the search: some start position matches. */
  ghost predicate OccursWholeWord(text: string, term: string)
  {
    exists i :: 0 <= i <= |text| && WholeWordAt(text, term, i)
  }

  /** Left-to-right scan for a match starting at `i` or later. */
  function SearchFrom(text: string, term: string, i: nat): (found: bool)
    requires i <= |text| + 1
    ensures found <==> exists j :: i <= j <= |text| && WholeWordAt(text, term, j)
    decreases |text| + 1 - i
  {
    if i + |term| > |text| then false
    else WholeWordAt(text, term, i) || SearchFrom(text, term, i + 1)
  }

  /** The search itself; it succeeds exactly when the term occurs as a whole word. */
  function Search(text: string, term: string): (found: bool)
    ensures found <==> OccursWholeWord(text, term)
  {
    SearchFrom(text, term, 0)
  }

  /** Case-insensitivity: terms that agree after lower-casing are found at the same places. */
  lemma WholeWordAtIgnoresCase(text: string, a: string, b: string, i: int)
    requires LowerStr(a) == LowerStr(b)
    ensures WholeWordAt(text, a, i) <==> WholeWordAt(text, b, i)
  {
    assert |a| == |LowerStr(a)| == |b|;
    if 0 <= i && i + |a| <= |text| {
      forall k | 0 <= k < |a|
        ensures ToLower(a[k]) == ToLower(b[k])
      {
        assert LowerStr(a)[k] == LowerStr(b)[k];
      }
    }
  }

  lemma SearchIgnoresCase(text: string, a: string, b: string)
    requires LowerStr(a) == LowerStr(b)
    ensures Search(text, a) == Search(text, b)
  {
    forall i | 0 <= i <= |text|
      ensures WholeWordAt(text, a, i) <==> WholeWordAt(text, b, i)
    {
      WholeWordAtIgnoresCase(text, a, b, i);
    }
  }

  /** Nothing non-empty occurs in the empty text. */
  lemma NothingInEmptyText(term: string)
    requires |term| > 0
    ensures !Search("", term)
  {
  }

  /**
    A term that ends in a non-word character, such as `C++`, is found only where
    a word character follows it: `\b` after `+` needs `\w` on its right.
  */
  lemma TrailingNonWordNeedsWordAfter(text: string, term: string, i: int)
    requires |term| > 0 && !IsWordChar(term[|term| - 1])
    requires WholeWordAt(text, term, i)
    ensures WordAt(text, i + |term|)
  {
    var last := i + |term| - 1;
    assert ToLower(text[last]) == ToLower(term[|term| - 1]);
  }

}
